=== FILE: README.md ===
# Agenda of a school kitchen: a Dafny model of its event rules

Agendapp is a single-page calendar for the kitchen department of a
secondary school in Murcia. Events carry a category. A dining-service
event is "auto-managed": adding one also adds two dependent reminders:

- a critical order, placed on the Monday that starts the service's week;
- an alarm, to prepare the order on the Friday strictly before the service.

Events can come from the add form or from an AI assistant's pasted JSON
answer. They can be deleted (the event together with its dependents) or
marked done. Two views list them: the dashboard shows the next eight
pending events in date order, and the calendar lists one day's events by
time.

This project models that core:

- the date rules of `utils.ts`;
- the configuration of `constants.tsx`;
- the event-collection operations and the two views of `App.tsx`;
- the cleaning and import of the assistant's answer in `App.tsx`.

Each operation is a pure function on immutable data, and its contract
states what the code promises.

The modules:

- `Calendar` gives proleptic Gregorian dates as day numbers. Day 0 is
  0001-01-01, a Monday. Weekdays count from 0 = Sunday, as JavaScript's
  `getDay` does. The module proves the conversion both ways.
- `Strings` gives the code-point order that stands for JavaScript's `<`
  and `>=` (which compare UTF-16 code units) and, here, for
  `localeCompare`. The two agree on every text without characters beyond
  U+FFFF, which covers the dates and times the application compares.
- `IsoDate` gives date-fns `format(d, 'yyyy-MM-dd')` and `parseISO` on
  date-only strings. It proves the round trips between them and that text
  order is day order.
- `Config` holds the category table, the holiday list, the academic year
  and the manual category picker.
- `DateRules` models `getMondayBefore`, `getFridayBefore` (the loop as
  written and a closed form), `checkUrgency` with date-fns
  `differenceInDays`, and `isHoliday`.
- `Events` is the event collection: `addEvent`, `importFromAI`, the delete
  and toggle handlers, and the well-formedness they preserve.
- `Sorting` is a stable insertion sort by a string key. It stands for the
  stable `Array.prototype.sort` with a `localeCompare` comparator.
- `Views` holds the dashboard's upcoming list and the calendar's day list.
- `Cleaning` covers the `replace`/`trim` pipeline applied to a pasted
  answer.
- `Bridge` is `handleImport`: cleaning, the JSON array check and the
  import.

Things the program draws from its surroundings are parameters of the model:

- the identifiers of `generateId`;
- today's formatted date;
- the selected day;
- the result of `JSON.parse`.

## Model

| member | source | states |
|---|---|---|
| IsoDate.FormatDate | utils.ts:5 | a day whose era year has at most four digits is printed as a `DDDD-DD-DD` text whose fields are that era year, month and day; a larger year prints more than ten characters |
| IsoDate.ParseIsoMeaning | App.tsx:153 | a text parses to a day exactly when it has the `DDDD-DD-DD` shape and spells that day's calendar date; a text such as `2025-02-29` names no day and parses to nothing |
| IsoDate.ParseIsoDate | App.tsx:153 | the day a text parses to has the text's year, month and day as its calendar date |
| IsoDate.ParseFormatDate | App.tsx:153 | with `formatDate` of utils.ts:5: formatting a day of years 1 to 9999 and parsing the text gives back the same day |
| IsoDate.FormatParseIso | App.tsx:153 | with `formatDate` of utils.ts:5: a valid date text of years 0001 to 9999 is exactly what its day formats as |
| IsoDate.YearZeroFormatsAsYearOne | App.tsx:153 | with `formatDate` of utils.ts:5: a year-0000 text parses, but its day formats with era year 0001, so the round trip changes the text |
| IsoDate.IsoOrder | App.tsx:192 | for texts printed by `formatDate` of utils.ts:5: on valid date texts, string order (`<` and `>=`) agrees with the order of the days they name, in both directions |
| DateRules.MondayBefore | utils.ts:11-14 | the week start is a Monday, no later than the date and less than seven days before it |
| DateRules.MondayBeforeUnique | utils.ts:11-14 | the week start is the only Monday in the seven days that end at the date |
| DateRules.MondayBeforeIdempotent | utils.ts:11-14 | taking the week start of a week start changes nothing |
| DateRules.MondayBeforeOnMondayAndSunday | utils.ts:11-14 | a Monday is its own week start; a Sunday belongs to the week that began six days earlier |
| DateRules.FridayBefore | utils.ts:16-24 | the result is a Friday strictly before the date and at most seven days before it |
| DateRules.FridayBeforeLatest | utils.ts:16-24 | no Friday lies strictly between the result and the date |
| DateRules.FridayBeforeOnFriday | utils.ts:16-24 | on a Friday the rule goes back a whole week, not to the same day |
| DateRules.GetFridayBefore | utils.ts:19-23 | the loop as written stops, after at most six extra steps, on the latest Friday strictly before the date, which equals the closed form |
| DateRules.CompareAsc | utils.ts:29 | the comparison is -1, 0 or 1, with the sign of the difference of the two instants |
| DateRules.DifferenceInDays | utils.ts:29 | date-fns' day difference (sign, calendar-day distance, correction for an incomplete last day) is the number of whole 24-hour days between the instants, truncated toward zero |
| DateRules.CheckUrgency | utils.ts:28-30 | an event is urgent exactly when it falls less than 20 days of 24 hours after its creation instant, or before it |
| DateRules.UrgencyOfWholeDays | utils.ts:28-30 | between two midnights urgency means a day difference below 20, and an event on or before its creation day is always urgent |
| DateRules.UrgencyMonotonic | utils.ts:28-30 | moving an event earlier never makes it less urgent |
| DateRules.IsHoliday | utils.ts:7-9 | only a valid date text of the academic year can be a holiday |
| DateRules.HolidayIsCanonical | utils.ts:7-9 | a holiday text is a valid date in the academic year, and it is exactly what its day formats as |
| DateRules.IsHolidayOfFormattedDay | utils.ts:7-9 | for a day of the common era, the formatted date is a holiday text exactly when the day is one of the holidays' days |
| Config.DefaultCategoryIdsDistinct | constants.tsx:4-14 | no two default categories share an id, so a lookup by type has at most one answer |
| Config.OnlyDiningServiceIsAutoManaged | constants.tsx:4-14 | in the default table a category spawns dependents exactly when it is dining service |
| Config.SystemCategoriesAreTheAutoOnes | constants.tsx:10-13 | exactly the last four default categories, the AUTO_* ones, are system categories, and none of them is auto-managed |
| Config.ManualCategories | App.tsx:366 | the picker offers exactly the non-system categories, each one present in the table |
| Config.DefaultManualCategories | constants.tsx:5-13 | with the default table the picker offers the first five categories in order, no AUTO_* category among them, and dining service is the only offered category that spawns dependents |
| Config.HolidaysAscending | constants.tsx:22-26 | the fifteen holidays are listed in strictly ascending order, so none repeats |
| Config.HolidaysInAcademicYear | constants.tsx:22-31 | every holiday is a valid date between the academic year's first and last day |
| Config.LocalDateInRange | constants.tsx:29-30 | the `Date` constructor with an in-range 0-based month index gives the day whose calendar date is that year, month + 1 and day, a year from 0 to 99 being read as 1900 to 1999 |
| Config.AcademicYearStart | constants.tsx:29 | with its 0-based month index the academic year starts on 1 September 2025 |
| Config.AcademicYearEnd | constants.tsx:30 | the academic year ends on 31 August 2026 |
| Config.AcademicYearLength | constants.tsx:28-31 | the academic year's last day comes 364 days after its first |
| Events.FindCategory | App.tsx:148 | the lookup answers with a category of the table that has the type as its id, and answers nothing exactly when no category has that id |
| Events.FindCategoryIsFirst | App.tsx:148 | when several categories share an id, the lookup picks the first |
| Events.AutoManagedMeaning | App.tsx:148-152 | a draft is expanded only when some category of its type is auto-managed; with distinct category ids, exactly then |
| Events.DefaultAutoManagement | App.tsx:148-152 | with the default table only a dining-service draft is expanded |
| Events.Primary | App.tsx:149 | the new event is the draft under the new id and not done: dropping `id` and `isDone` gives the draft back |
| Events.Critical | App.tsx:154 | the critical dependent is titled `🚨 HACER PEDIDO`, has no time and is not an IES event; it points to the new event, is generated and not done, notes the service's title, and for a service of years 2 to 9999 is dated with a text that parses to the Monday starting the service's week |
| Events.Alarm | App.tsx:155 | the alarm is titled `⚠️ Elaborar Pedido`, has no time and is not an IES event; it points to the new event, is generated and not done, notes `Revisión stock`, and for a service of years 2 to 9999 is dated with a text that parses to the closest Friday strictly before the service |
| Events.Dependents | App.tsx:152-155 | the dependents are the critical order then the alarm, under the given ids, both pointing to the new event, generated and not done |
| Events.AddEvent | App.tsx:146-158 | the add fails exactly when the category is auto-managed and the date does not parse; otherwise the old events stay in front, the new event follows with its id and not done, and 2 dependents follow only for an auto-managed category |
| Events.AddEventDependents | App.tsx:153-155 | the two dependents are the critical order, then the alarm, with the given ids, pointing to the new event, generated and not done; the critical one notes the service's title |
| Events.AddPlainEvent | App.tsx:150-157 | a draft whose category is not auto-managed, including one of an unknown type, is always added alone |
| Events.DependentDates | App.tsx:153-155 | for a service date from year 2 on, the critical order falls on the Monday of the service's week and the alarm on the closest Friday strictly before the service, both as valid date texts |
| Events.DiningServiceExample | App.tsx:146-158 | a dining service on Monday 2025-12-15 has its order placed on 2025-12-15 and prepared on Friday 2025-12-12 |
| Events.AddEventKeepsWellFormed | App.tsx:146-158 | adding a parentless draft under three fresh, distinct ids keeps ids unique and every dependent attached to an existing, non-dependent event |
| Events.ImportFromAI | App.tsx:160-163 | the import appends each item in order, under its own id and not done, and leaves the old events in front |
| Events.ImportOneIsPlainAdd | App.tsx:160-163 | importing one item adds what the form adds for a kind no category manages, so imported services get no dependents |
| Events.ImportConcat | App.tsx:160-163 | importing two batches one after the other equals importing them together |
| Events.ImportKeepsWellFormed | App.tsx:160-163 | importing parentless items under fresh, distinct ids keeps the collection well formed |
| Events.Delete | App.tsx:173 | an event survives a delete exactly when it is neither the deleted event nor one of its dependents |
| Events.DeleteAppend | App.tsx:173 | deleting from two concatenated lists deletes from each list |
| Events.DeleteIdempotent | App.tsx:173 | a second delete of the same id changes nothing |
| Events.DeleteKeepsOrder | App.tsx:173 | the survivors keep their relative order |
| Events.DeleteKeepsWellFormed | App.tsx:173 | deleting from a well-formed collection leaves no dependent without its event |
| Events.Toggle | App.tsx:173-174 | the list keeps its length and order, the done flag flips exactly on the events with the id, and nothing else changes |
| Events.ToggleInvolution | App.tsx:173-174 | toggling the same id twice restores the list |
| Events.ToggleKeepsWellFormed | App.tsx:173-174 | toggling keeps the collection well formed |
| Sorting.SortBy | App.tsx:192 | the sort result is a permutation of its input, ordered by the key |
| Sorting.SortByStable | App.tsx:281 | for each key, the elements with that key keep their input order, as `Array.prototype.sort` guarantees |
| Sorting.StableSortIsUnique | App.tsx:192 | any key-ordered list that keeps each key's elements in input order equals the sort result, so the result is fully determined |
| Sorting.PrefixKeepsLeast | App.tsx:192 | a prefix of a sorted list comes from the list, and every element cut off has a key no smaller than any element kept |
| Views.Pending | App.tsx:192 | the dashboard's candidates are exactly the events that are not done and dated today or later, each with its multiplicity |
| Views.Upcoming | App.tsx:192 | the upcoming list holds the first eight pending events (all of them when fewer), in non-decreasing date order |
| Views.UpcomingAreEarliest | App.tsx:192 | the upcoming events come from the pending ones; when fewer than eight are shown, no pending event is left out; any pending event left out is dated no earlier than every shown one |
| Views.UpcomingMembers | App.tsx:192 | every upcoming event is in the collection, not done, and dated today or later |
| Views.UpcomingChronological | App.tsx:191-192 | with today formatted from the clock, no upcoming event with a valid date precedes today, and valid dates follow in chronological order |
| Views.OnDate | App.tsx:281 | the filter keeps exactly the events with that date text, each with its multiplicity |
| Views.DayEvents | App.tsx:281 | the day list holds exactly the events dated with the day's formatted date, ordered by time, with a missing or empty time read as 00:00 |
| Views.DayEventsStable | App.tsx:281 | events at the same time keep their collection order |
| Views.DayEventsByParsedDate | App.tsx:281 | for a day of years 1 to 9999, an event is listed exactly when its date text parses to that day |
| Cleaning.RemoveFences | App.tsx:87 | removing the fences never lengthens the text |
| Cleaning.RemoveFencesLeavesNoFence | App.tsx:87 | no three-backtick fence is left after the replacement |
| Cleaning.RemoveFencesKeepsFenceFree | App.tsx:87 | a text without fences is left unchanged |
| Cleaning.RemoveFencesIdempotent | App.tsx:87 | a second replacement changes nothing |
| Cleaning.RemoveFencesUnwraps | App.tsx:87 | a backtick-free body between an opening `json` fence and a closing fence comes out unwrapped |
| Cleaning.Trim | App.tsx:87 | the result is the text with its leading and trailing JavaScript whitespace removed and nothing else |
| Cleaning.TrimUnique | App.tsx:87 | any slice that drops exactly the whitespace ends is the trim result |
| Cleaning.TrimIdempotent | App.tsx:87 | trimming twice is trimming once |
| Cleaning.TrimKeepsTrimmed | App.tsx:87 | a text that neither starts nor ends with whitespace is left unchanged |
| Cleaning.CiteEnd | App.tsx:88 | the lazy `.*?\]` match ends at the first `]`, with no line terminator before it |
| Cleaning.CiteEndFinds | App.tsx:88 | when a `]` follows with no `]` or line terminator in between, the match ends there |
| Cleaning.RemoveCitesKeepsLines | App.tsx:88 | removing citation markers keeps every line terminator, since a marker never spans lines |
| Cleaning.RemoveCites | App.tsx:88 | removing the markers never lengthens the text |
| Cleaning.RemoveCitesKeepsPlain | App.tsx:88 | a text in which `[cite` never occurs, such as a plain JSON array, is left unchanged |
| Cleaning.RemoveCitesMarker | App.tsx:88 | a `[cite...]` marker at the front, closed on its line, is dropped and the rest is processed as usual |
| Cleaning.Clean | App.tsx:87-88 | cleaning never lengthens the pasted text |
| Cleaning.CleanPlainAnswer | App.tsx:87-88 | a text without backticks and without `[cite`, such as a bare JSON array, is only trimmed |
| Cleaning.CleanFencedAnswer | App.tsx:87-88 | a fenced JSON answer whose body has no backtick and no `[cite` cleans to the trimmed body |
| Cleaning.CleanArrayExample | App.tsx:87-88 | a fenced answer holding the array `[1]` on a line of its own cleans to `[1]` |
| Bridge.HandleImport | App.tsx:85-96 | a format error is reported exactly when parsing throws; a non-array value changes nothing; an array of n items reports n imports and appends the items in order under the given ids |
| Bridge.HandleImportKeepsWellFormed | App.tsx:85-96 | an import of parentless items under fresh, distinct ids keeps the collection well formed |

## Left out

- Rendering, routing, `localStorage` persistence, settings, backup
  export and restore, the clipboard, `alert` and `navigate`. These are user
  interface and I/O, with no logic beyond what is modelled.
- `generateId` draws random text. Identifiers are parameters; freshness and
  distinctness are assumptions of the well-formedness lemmas only.
- The clock (`new Date()`) is a parameter: the upcoming list takes today's
  formatted date, and urgency takes the creation instant.
- `JSON.parse` is a parameter of `Bridge.HandleImport` that answers with an
  array of drafts, another value, or nothing. Items that are not objects,
  and fields of an item beyond the event's own, are not represented.
  Absent optional flags read as false.
- Bridge.HandleImport: an item's `date` is always a text. In the program an
  item without a `date`, or with a date that is not a string, is still
  imported. It then never shows in the upcoming list, since
  `undefined >= today` is false, nor in any day list. The model has no such
  items.
- Time zones and daylight saving time. Every local day lasts 24 hours, so
  `differenceInDays` and `checkUrgency` work on day numbers plus
  milliseconds.
- IsoDate.ParseIso: only the date-only `YYYY-MM-DD` form of date-fns'
  `parseISO` is modelled. Week dates, ordinal dates, expanded years and
  times are treated as unparsable, so an auto-managed draft with such a
  date fails to add.
- IsoDate.FormatDate: days whose era year exceeds 9999 (years after 9999
  or before -9998) are only bounded in length (more than ten characters),
  not spelled out digit by digit.
- Sorting.SortBy: `localeCompare` is modelled as code-point order. That
  order coincides with the locale order on the digit-and-dash dates and
  `HH:MM` times the application stores. It is not the locale order on
  arbitrary text.
- Events.DependentDates: it holds for service dates from year 2 on. Within
  year 1 the week-start or the Friday before can fall before day 0.
- `checkUrgency` and `isHoliday` are modelled as `utils.ts` defines them,
  but `App.tsx` never calls them.
- The AUTO_PREP and AUTO_MENU_PREP categories (`constants.tsx:10`,
  `constants.tsx:13`) exist in the table, but no code path creates events
  of those types: `addEvent` (`App.tsx:152-156`) creates only the critical
  order and the alarm, and so does the model.
- The category list can be replaced by a restored backup (`App.tsx:178`)
  or by the saved copy (`App.tsx:132-135`). Only the default table is
  analysed, and every operation takes the list as a parameter.

=== FILE: bridge.dfy ===
/**
 * The AI bridge's import (App.tsx, `AIBridge.handleImport`): the pasted
 * answer is cleaned, parsed as JSON, and imported when it is an array.
 */
module Bridge {
  import opened Wrappers
  import opened Events
  import opened Cleaning

  /** What `JSON.parse` made of the cleaned text: an array of items, another value, or nothing (it threw). */
  datatype JsonValue = JsonArray(items: seq<Draft>) | JsonOther

  /** What the user is told: how many events were imported, a format error, or nothing. */
  datatype ImportOutcome = Imported(count: nat) | FormatError | Ignored

  /**
   * `handleImport`: `parse` stands for `JSON.parse` (`None` when it throws)
   * and `newId(k)` for the identifier `generateId` gives the `k`-th item.
   */
  function HandleImport(events: seq<Event>, raw: string, parse: string -> Option<JsonValue>,
                        newId: nat -> string): (r: (seq<Event>, ImportOutcome))
    ensures r.1.FormatError? <==> parse(Clean(raw)).None?
    ensures r.1.Ignored? <==> parse(Clean(raw)) == Some(JsonOther)
    ensures !r.1.Imported? ==> r.0 == events
    ensures r.1.Imported? ==>
      var items := parse(Clean(raw)).value.items;
      && r.1.count == |items|
      && |r.0| == |events| + |items|
      && r.0[..|events|] == events
      && forall k :: 0 <= k < |items| ==> r.0[|events| + k] == Primary(items[k], newId(k))
  {
    match parse(Clean(raw))
    case None => (events, FormatError)
    case Some(JsonOther) => (events, Ignored)
    case Some(JsonArray(items)) =>
      (ImportFromAI(events, items, seq(|items|, k requires 0 <= k => newId(k))), Imported(|items|))
  }

  /** An import of parentless items under fresh, distinct identifiers keeps the collection well formed. */
  lemma HandleImportKeepsWellFormed(events: seq<Event>, raw: string, parse: string -> Option<JsonValue>,
                                    newId: nat -> string)
    requires WellFormed(events)
    requires forall k :: !HasId(events, newId(k))
    requires forall k, l :: k != l ==> newId(k) != newId(l)
    requires parse(Clean(raw)).Some? && parse(Clean(raw)).value.JsonArray? ==>
      forall k :: 0 <= k < |parse(Clean(raw)).value.items| ==> parse(Clean(raw)).value.items[k].parentId.None?
    ensures WellFormed(HandleImport(events, raw, parse, newId).0)
  {
    match parse(Clean(raw))
    case None =>
    case Some(JsonOther) =>
    case Some(JsonArray(items)) =>
      var ids := seq(|items|, k requires 0 <= k => newId(k));
      ImportKeepsWellFormed(events, items, ids);
  }
}

=== FILE: calendar.dfy ===
/**
 * Civil calendar arithmetic. The application treats every date as a whole
 * local calendar day; here a day is an integer day number, day 0 being
 * 0001-01-01 of the proleptic Gregorian calendar (a Monday), and negative
 * numbers are the days before it. This module converts between day numbers
 * and (year, month, day) triples and gives the weekday of a day number with
 * JavaScript's `getDay` numbering (0 = Sunday ... 6 = Saturday).
 */
module Calendar {

  /** A proleptic Gregorian date; `month` runs from 1 (January) to 12. */
  datatype Date = Date(year: int, month: int, day: int)

  const Sunday := 0
  const Monday := 1
  const Friday := 5

  /** The Gregorian leap-year rule (section 5.7 of RFC 3339 restates it). */
  predicate IsLeapYear(y: int) {
    y % 4 == 0 && (y % 100 != 0 || y % 400 == 0)
  }

  function DaysInYear(y: int): int {
    if IsLeapYear(y) then 366 else 365
  }

  function DaysInMonth(y: int, m: int): int
    requires 1 <= m <= 12
  {
    if m == 2 then (if IsLeapYear(y) then 29 else 28)
    else if m == 4 || m == 6 || m == 9 || m == 11 then 30
    else 31
  }

  /** A triple that names an existing day. */
  predicate IsValid(d: Date) {
    1 <= d.month <= 12 && 1 <= d.day <= DaysInMonth(d.year, d.month)
  }

  /** Days of a common year that precede the first of month `m` (m = 13 is the year's end). */
  const CommonDaysBefore: seq<int> := [0, 31, 59, 90, 120, 151, 181, 212, 243, 273, 304, 334, 365]

  /** Days of year `y` that precede the first of month `m`. */
  function DaysBeforeMonth(y: int, m: int): int
    requires 1 <= m <= 13
  {
    CommonDaysBefore[m - 1] + (if m > 2 && IsLeapYear(y) then 1 else 0)
  }

  lemma DaysBeforeNextMonth(y: int, m: int)
    requires 1 <= m <= 12
    ensures DaysBeforeMonth(y, m + 1) == DaysBeforeMonth(y, m) + DaysInMonth(y, m)
  {
  }

  lemma DaysBeforeYearEnd(y: int)
    ensures DaysBeforeMonth(y, 1) == 0
    ensures DaysBeforeMonth(y, 13) == DaysInYear(y)
  {
  }

  /** Days from 0001-01-01 to the first of January of year `y` (negative before year 1). */
  function DaysBeforeYear(y: int): int {
    var k := y - 1;
    365 * k + k / 4 - k / 100 + k / 400
  }

  /** Euclidean division has a unique quotient and remainder. */
  lemma DivUnique(x: int, c: int, q: int, r: int)
    requires c > 0 && 0 <= r < c && x == c * q + r
    ensures x / c == q && x % c == r
  {
    var q' := x / c;
    assert x == c * q' + x % c;
    if q' < q {
      MulAtLeast(c, q - q');
    } else if q' > q {
      MulAtLeast(c, q' - q);
    }
  }

  lemma MulAtLeast(c: int, t: int)
    requires c > 0 && t >= 1
    ensures c * t >= c
  {
    assert c * t == c + c * (t - 1);
  }

  /** Stepping `y` by one moves `y / c` exactly when `y` is a multiple of `c`. */
  lemma DivStep(y: int, c: int)
    requires c > 0
    ensures y / c - (y - 1) / c == (if y % c == 0 then 1 else 0)
  {
    var q := (y - 1) / c;
    var r := (y - 1) % c;
    assert y - 1 == c * q + r;
    if r == c - 1 {
      DivUnique(y, c, q + 1, 0);
    } else {
      DivUnique(y, c, q, r + 1);
    }
  }

  /** The closed form for the start of a year agrees with the leap-year rule. */
  lemma DaysBeforeNextYear(y: int)
    ensures DaysBeforeYear(y + 1) == DaysBeforeYear(y) + DaysInYear(y)
  {
    DivStep(y, 4);
    DivStep(y, 100);
    DivStep(y, 400);
    var a := y % 4;
    var b := y % 100;
    var c := y % 400;
    // a multiple of 400 is a multiple of 100 and of 4; a multiple of 100 is a multiple of 4
    if c == 0 {
      DivUnique(y, 100, 4 * (y / 400), 0);
      DivUnique(y, 4, 100 * (y / 400), 0);
    }
    if b == 0 {
      DivUnique(y, 4, 25 * (y / 100), 0);
    }
  }

  lemma DaysBeforeYearMonotonic(a: int, b: int)
    requires a <= b
    ensures DaysBeforeYear(a) + 365 * (b - a) <= DaysBeforeYear(b)
    decreases b - a
  {
    if a < b {
      DaysBeforeYearMonotonic(a + 1, b);
      DaysBeforeNextYear(a);
    }
  }

  /**
   * The year whose days include day number `n`. A Gregorian 400-year cycle
   * has 146097 days, and the closed form of `DaysBeforeYear` strays less than
   * two days from that mean, so the year is the cycle estimate or the next one.
   */
  function YearOf(n: int): (y: int)
    ensures DaysBeforeYear(y) <= n < DaysBeforeYear(y + 1)
  {
    var y0 := (400 * n) / 146097 + 1;
    YearEstimate(n);
    DaysBeforeNextYear(y0);
    if n < DaysBeforeYear(y0 + 1) then y0 else y0 + 1
  }

  lemma YearEstimate(n: int)
    ensures DaysBeforeYear((400 * n) / 146097 + 1) <= n < DaysBeforeYear((400 * n) / 146097 + 3)
  {
    var k := (400 * n) / 146097;
    assert 146097 * k <= 400 * n < 146097 * k + 146097;
    var k2 := k + 2;
    assert 4 * (k / 4) <= k && 100 * (k / 100) > k - 100 && 400 * (k / 400) <= k;
    assert 4 * (k2 / 4) > k2 - 4 && 100 * (k2 / 100) <= k2 && 400 * (k2 / 400) > k2 - 400;
  }

  /** Only one year contains a given day. */
  lemma YearUnique(n: int, a: int, b: int)
    requires DaysBeforeYear(a) <= n < DaysBeforeYear(a + 1)
    requires DaysBeforeYear(b) <= n < DaysBeforeYear(b + 1)
    ensures a == b
  {
    if a < b {
      DaysBeforeYearMonotonic(a + 1, b);
    } else if b < a {
      DaysBeforeYearMonotonic(b + 1, a);
    }
  }

  /** The month of year `y` that contains day-of-year `doy` (0-based). */
  function MonthOf(y: int, doy: int): (m: int)
    requires 0 <= doy < DaysInYear(y)
    ensures 1 <= m <= 12
    ensures DaysBeforeMonth(y, m) <= doy < DaysBeforeMonth(y, m + 1)
  {
    if doy >= DaysBeforeMonth(y, 12) then 12
    else if doy >= DaysBeforeMonth(y, 11) then 11
    else if doy >= DaysBeforeMonth(y, 10) then 10
    else if doy >= DaysBeforeMonth(y, 9) then 9
    else if doy >= DaysBeforeMonth(y, 8) then 8
    else if doy >= DaysBeforeMonth(y, 7) then 7
    else if doy >= DaysBeforeMonth(y, 6) then 6
    else if doy >= DaysBeforeMonth(y, 5) then 5
    else if doy >= DaysBeforeMonth(y, 4) then 4
    else if doy >= DaysBeforeMonth(y, 3) then 3
    else if doy >= DaysBeforeMonth(y, 2) then 2
    else 1
  }

  lemma MonthUnique(y: int, doy: int, a: int, b: int)
    requires 1 <= a <= 12 && 1 <= b <= 12
    requires DaysBeforeMonth(y, a) <= doy < DaysBeforeMonth(y, a + 1)
    requires DaysBeforeMonth(y, b) <= doy < DaysBeforeMonth(y, b + 1)
    ensures a == b
  {
  }

  /** The day number of a date. */
  function ToDayNumber(d: Date): int
    requires 1 <= d.month <= 12
  {
    DaysBeforeYear(d.year) + DaysBeforeMonth(d.year, d.month) + d.day - 1
  }

  /** The date of a day number; it names a real day and converts back to `n`. */
  function FromDayNumber(n: int): (d: Date)
    ensures IsValid(d)
    ensures ToDayNumber(d) == n
  {
    DaysBeforeNextYear(YearOf(n));
    DateInYear(YearOf(n), n - DaysBeforeYear(YearOf(n)))
  }

  /** The date of day-of-year `doy` (0-based) of year `y`. */
  function DateInYear(y: int, doy: int): (d: Date)
    requires 0 <= doy < DaysInYear(y)
    ensures IsValid(d) && d.year == y
    ensures DaysBeforeMonth(y, d.month) + d.day - 1 == doy
  {
    DaysBeforeYearEnd(y);
    DaysBeforeNextMonth(y, MonthOf(y, doy));
    Date(y, MonthOf(y, doy), doy - DaysBeforeMonth(y, MonthOf(y, doy)) + 1)
  }

  /** Every valid date survives the trip through its day number. */
  lemma FromToDayNumber(d: Date)
    requires IsValid(d)
    ensures FromDayNumber(ToDayNumber(d)) == d
  {
    var n := ToDayNumber(d);
    DaysBeforeNextMonth(d.year, d.month);
    DaysBeforeNextYear(d.year);
    assert DaysBeforeMonth(d.year, d.month + 1) <= DaysBeforeMonth(d.year, 13);
    var r := FromDayNumber(n);
    YearUnique(n, r.year, d.year);
    MonthUnique(d.year, n - DaysBeforeYear(d.year), r.month, d.month);
  }

  /** Later days never fall in earlier years. */
  lemma YearOfMonotonic(m: int, n: int)
    requires m <= n
    ensures FromDayNumber(m).year <= FromDayNumber(n).year
  {
    var a := YearOf(m);
    var b := YearOf(n);
    assert FromDayNumber(m).year == a && FromDayNumber(n).year == b;
    if b < a {
      DaysBeforeYearMonotonic(b + 1, a);
    }
  }

  /** Day 0 and every later day fall in year 1 or after. */
  lemma CommonEraDays(n: int)
    requires n >= 0
    ensures FromDayNumber(n).year >= 1
  {
    var y := FromDayNumber(n).year;
    DayNumberInYear(FromDayNumber(n));
    if y < 1 {
      DaysBeforeYearMonotonic(y + 1, 1);
    }
  }

  /** `a` comes before `b` in (year, month, day) order. */
  predicate Before(a: Date, b: Date) {
    || a.year < b.year
    || (a.year == b.year && a.month < b.month)
    || (a.year == b.year && a.month == b.month && a.day < b.day)
  }

  lemma {:induction false} DaysBeforeMonthMonotonic(y: int, a: int, b: int)
    requires 1 <= a <= b <= 13
    ensures DaysBeforeMonth(y, a) <= DaysBeforeMonth(y, b)
    decreases b - a
  {
    if a < b {
      DaysBeforeNextMonth(y, a);
      DaysBeforeMonthMonotonic(y, a + 1, b);
    }
  }

  /** A valid date lies within its year's days. */
  lemma DayNumberInYear(d: Date)
    requires IsValid(d)
    ensures DaysBeforeYear(d.year) <= ToDayNumber(d) < DaysBeforeYear(d.year + 1)
  {
    DaysBeforeNextMonth(d.year, d.month);
    DaysBeforeMonthMonotonic(d.year, d.month + 1, 13);
    DaysBeforeNextYear(d.year);
  }

  lemma BeforeMeansEarlier(a: Date, b: Date)
    requires IsValid(a) && IsValid(b) && Before(a, b)
    ensures ToDayNumber(a) < ToDayNumber(b)
  {
    if a.year < b.year {
      DayNumberInYear(a);
      DayNumberInYear(b);
      DaysBeforeYearMonotonic(a.year + 1, b.year);
    } else if a.month < b.month {
      DaysBeforeNextMonth(a.year, a.month);
      DaysBeforeMonthMonotonic(a.year, a.month + 1, b.month);
    }
  }

  /** Day numbers order valid dates as the calendar does. */
  lemma DayNumberOrder(a: Date, b: Date)
    requires IsValid(a) && IsValid(b)
    ensures ToDayNumber(a) < ToDayNumber(b) <==> Before(a, b)
  {
    if Before(a, b) {
      BeforeMeansEarlier(a, b);
    } else if a != b {
      BeforeMeansEarlier(b, a);
    }
  }

  /** JavaScript's `getDay` for day `n`: 0 = Sunday, 1 = Monday, ..., 6 = Saturday. */
  function Weekday(n: int): (w: int)
    ensures 0 <= w < 7
  {
    (n + 1) % 7
  }

  /** Days a week apart share their weekday. */
  lemma WeekdayPeriodic(n: int, k: int)
    ensures Weekday(n + 7 * k) == Weekday(n)
  {
    DivUnique(n + 1 + 7 * k, 7, (n + 1) / 7 + k, (n + 1) % 7);
  }
}

=== FILE: cleaning.dfy ===
/**
 * The cleaning the AI bridge applies to a pasted answer before parsing it
 * (App.tsx, `AIBridge.handleImport`): Markdown code fences are removed, the
 * text is trimmed, and `[cite...]` markers are removed, each step a
 * JavaScript string operation.
 */
module Cleaning {
  import opened Wrappers

  /** The code fence the first replacement removes, with or without its language tag. */
  const Fence := "```"
  const JsonFence := "```json"
  /** The opening of a citation marker. */
  const CiteOpen := "[cite"

  /** The line terminators of ECMAScript, which the regular expression `.` does not match. */
  predicate IsLineTerminator(c: char) {
    c == '\n' || c == '\r' || c == '\U{2028}' || c == '\U{2029}'
  }

  /**
   * The characters `String.prototype.trim` removes: the white space of
   * ECMAScript (tab, vertical tab, form feed, space, no-break space, byte
   * order mark and the space separators of Unicode) and its line terminators.
   */
  predicate IsJsSpace(c: char) {
    || IsLineTerminator(c)
    || c == '\t' || c == '\U{000B}' || c == '\U{000C}' || c == ' ' || c == '\U{00A0}' || c == '\U{FEFF}'
    || c == '\U{1680}' || ('\U{2000}' <= c <= '\U{200A}') || c == '\U{202F}' || c == '\U{205F}' || c == '\U{3000}'
  }

  // ---------------------------------------------------------------------
  // replace(/```json|```/g, '')
  // ---------------------------------------------------------------------

  /** Three backticks at position `i`. */
  predicate FenceAt(s: string, i: int) {
    0 <= i && i + 3 <= |s| && s[i] == '`' && s[i + 1] == '`' && s[i + 2] == '`'
  }

  /** The text starts with "```json". */
  predicate StartsWithJsonFence(s: string) {
    FenceAt(s, 0) && |s| >= 7 && s[3] == 'j' && s[4] == 's' && s[5] == 'o' && s[6] == 'n'
  }

  /** No three backticks in a row. */
  predicate NoFence(s: string) {
    forall i :: 0 <= i < |s| ==> !FenceAt(s, i)
  }

  /**
   * The global replacement of `/```json|```/` by nothing: scanning from the
   * left, the longer alternative is tried first at each position.
   */
  function RemoveFences(s: string): (r: string)
    ensures |r| <= |s|
    decreases |s|
  {
    if StartsWithJsonFence(s) then RemoveFences(s[7..])
    else if FenceAt(s, 0) then RemoveFences(s[3..])
    else if s == [] then []
    else [s[0]] + RemoveFences(s[1..])
  }

  /** Text that does not start with two backticks is cleaned into text that does not either. */
  lemma RemoveFencesStart(s: string)
    requires |s| < 2 || s[0] != '`' || s[1] != '`'
    ensures var r := RemoveFences(s); |r| < 2 || r[0] != '`' || r[1] != '`'
  {
    if |s| >= 2 && s[0] == '`' {
      assert !FenceAt(s[1..], 0);
    }
  }

  /** No code fence survives the replacement, even one formed by joining the text around a removed one. */
  lemma {:induction false} RemoveFencesLeavesNoFence(s: string)
    ensures NoFence(RemoveFences(s))
    decreases |s|
  {
    if StartsWithJsonFence(s) {
      RemoveFencesLeavesNoFence(s[7..]);
    } else if FenceAt(s, 0) {
      RemoveFencesLeavesNoFence(s[3..]);
    } else if s != [] {
      var rest := RemoveFences(s[1..]);
      var r := [s[0]] + rest;
      RemoveFencesLeavesNoFence(s[1..]);
      if s[0] == '`' {
        RemoveFencesStart(s[1..]);
      }
      forall i | 0 <= i < |r|
        ensures !FenceAt(r, i)
      {
        if i > 0 && i + 3 <= |r| {
          assert !FenceAt(rest, i - 1);
          assert r[i] == rest[i - 1] && r[i + 1] == rest[i] && r[i + 2] == rest[i + 1];
        }
      }
    }
  }

  /** Text without a code fence is left as it is. */
  lemma {:induction false} RemoveFencesKeepsFenceFree(s: string)
    requires NoFence(s)
    ensures RemoveFences(s) == s
    decreases |s|
  {
    if s != [] {
      assert !FenceAt(s, 0);
      assert NoFence(s[1..]) by {
        forall i | 0 <= i < |s[1..]|
          ensures !FenceAt(s[1..], i)
        {
          assert !FenceAt(s, i + 1);
        }
      }
      RemoveFencesKeepsFenceFree(s[1..]);
      assert s == [s[0]] + s[1..];
    }
  }

  /** Removing fences twice removes nothing more. */
  lemma RemoveFencesIdempotent(s: string)
    ensures RemoveFences(RemoveFences(s)) == RemoveFences(s)
  {
    RemoveFencesLeavesNoFence(s);
    RemoveFencesKeepsFenceFree(RemoveFences(s));
  }

  /** A leading "```json" is removed whatever follows it. */
  lemma RemoveFencesDropsJsonFence(t: string)
    ensures RemoveFences(JsonFence + t) == RemoveFences(t)
  {
    var s := JsonFence + t;
    assert s[..7] == JsonFence && s[7..] == t;
    assert StartsWithJsonFence(s);
  }

  /** An answer wrapped in a JSON code block, with no backtick inside, is unwrapped to its body. */
  lemma RemoveFencesUnwraps(body: string)
    requires forall i :: 0 <= i < |body| ==> body[i] != '`'
    ensures RemoveFences(JsonFence + (body + Fence)) == body
  {
    RemoveFencesDropsJsonFence(body + Fence);
    NoBacktickBody(body);
  }

  lemma {:induction false} NoBacktickBody(body: string)
    requires forall i :: 0 <= i < |body| ==> body[i] != '`'
    ensures RemoveFences(body + Fence) == body
    decreases |body|
  {
    var s := body + Fence;
    if body == [] {
      assert s == Fence && FenceAt(s, 0) && !StartsWithJsonFence(s);
      assert s[3..] == [];
    } else {
      assert s[0] == body[0] && !FenceAt(s, 0);
      assert s[1..] == body[1..] + Fence;
      NoBacktickBody(body[1..]);
      assert body == [body[0]] + body[1..];
    }
  }

  // ---------------------------------------------------------------------
  // trim()
  // ---------------------------------------------------------------------

  /** Where the white space that starts at `i` ends. */
  function SpacesFrom(s: string, i: nat): (n: nat)
    requires i <= |s|
    ensures i <= n <= |s|
    ensures forall k :: i <= k < n ==> IsJsSpace(s[k])
    ensures n == |s| || !IsJsSpace(s[n])
    decreases |s| - i
  {
    if i < |s| && IsJsSpace(s[i]) then SpacesFrom(s, i + 1) else i
  }

  /** Where the white space that ends at `j` starts, going back no further than `lo`. */
  function SpacesBefore(s: string, lo: nat, j: nat): (n: nat)
    requires lo <= j <= |s|
    ensures lo <= n <= j
    ensures forall k :: n <= k < j ==> IsJsSpace(s[k])
    ensures n == lo || !IsJsSpace(s[n - 1])
    decreases j
  {
    if lo < j && IsJsSpace(s[j - 1]) then SpacesBefore(s, lo, j - 1) else j
  }

  /**
   * `r` is `s` trimmed, starting at offset `i`: the slice of `s` from `i`
   * that neither starts nor ends with white space, with only white space
   * around it.
   */
  predicate IsTrimmingOf(s: string, r: string, i: int) {
    && 0 <= i <= |s| - |r| && r == s[i..i + |r|]
    && (forall k :: 0 <= k < i ==> IsJsSpace(s[k]))
    && (forall k :: i + |r| <= k < |s| ==> IsJsSpace(s[k]))
    && (r != [] ==> !IsJsSpace(r[0]) && !IsJsSpace(r[|r| - 1]))
  }

  /** `String.prototype.trim`: `s` without its leading and trailing white space. */
  function Trim(s: string): (r: string)
    ensures exists i :: IsTrimmingOf(s, r, i)
  {
    var i := SpacesFrom(s, 0);
    var e := SpacesBefore(s, i, |s|);
    assert IsTrimmingOf(s, s[i..e], i);
    s[i..e]
  }

  /** Trimming is the only such slice: `Trim` is determined by `IsTrimmingOf`. */
  lemma TrimUnique(s: string, r: string, i: int)
    requires IsTrimmingOf(s, r, i)
    ensures r == Trim(s)
  {
    var t := Trim(s);
    var j :| IsTrimmingOf(s, t, j);
  }

  /** Text that neither starts nor ends with white space is not changed by trimming. */
  lemma TrimKeepsTrimmed(s: string)
    requires s == [] || (!IsJsSpace(s[0]) && !IsJsSpace(s[|s| - 1]))
    ensures Trim(s) == s
  {
    assert IsTrimmingOf(s, s, 0);
    TrimUnique(s, s, 0);
  }

  /** Trimming twice trims nothing more. */
  lemma TrimIdempotent(s: string)
    ensures Trim(Trim(s)) == Trim(s)
  {
    var t := Trim(s);
    var i :| IsTrimmingOf(s, t, i);
    TrimKeepsTrimmed(t);
  }

  // ---------------------------------------------------------------------
  // replace(/\[cite.*?\]/g, '')
  // ---------------------------------------------------------------------

  /**
   * Where the lazy `.*?\]` ends when started at `k`: the first `]` from `k`
   * on, provided no line terminator comes before it.
   */
  function CiteEnd(s: string, k: nat): (r: Option<nat>)
    ensures r.Some? ==> k <= r.value < |s| && s[r.value] == ']'
    ensures r.Some? ==> forall j :: k <= j < r.value ==> s[j] != ']' && !IsLineTerminator(s[j])
    decreases |s| - k
  {
    if k >= |s| then None
    else if s[k] == ']' then Some(k)
    else if IsLineTerminator(s[k]) then None
    else CiteEnd(s, k + 1)
  }

  /** Whether a citation marker `[cite...]` starts the text. */
  predicate StartsWithCite(s: string) {
    |s| >= |CiteOpen| && s[..|CiteOpen|] == CiteOpen && CiteEnd(s, |CiteOpen|).Some?
  }

  /**
   * The global replacement of `/\[cite.*?\]/` by nothing: scanning from the
   * left, a marker runs from `[cite` to the first `]` after it on the same line.
   */
  function RemoveCites(s: string): (r: string)
    ensures |r| <= |s|
    decreases |s|
  {
    if StartsWithCite(s) then RemoveCites(s[CiteEnd(s, |CiteOpen|).value + 1..])
    else if s == [] then []
    else [s[0]] + RemoveCites(s[1..])
  }

  /** The number of line terminators in the text. */
  function LineBreaks(s: string): nat {
    if s == [] then 0 else (if IsLineTerminator(s[0]) then 1 else 0) + LineBreaks(s[1..])
  }

  lemma {:induction false} LineBreaksSplit(s: string, n: nat)
    requires n <= |s|
    ensures LineBreaks(s) == LineBreaks(s[..n]) + LineBreaks(s[n..])
    decreases n
  {
    if n > 0 {
      assert s[..n][1..] == s[1..][..n - 1];
      assert s[n..] == s[1..][n - 1..];
      LineBreaksSplit(s[1..], n - 1);
    }
  }

  lemma {:induction false} NoLineBreaks(s: string)
    requires forall j :: 0 <= j < |s| ==> !IsLineTerminator(s[j])
    ensures LineBreaks(s) == 0
    decreases |s|
  {
    if s != [] {
      NoLineBreaks(s[1..]);
    }
  }

  /** A citation marker never spans lines: removing markers keeps every line break. */
  lemma {:induction false} RemoveCitesKeepsLines(s: string)
    ensures LineBreaks(RemoveCites(s)) == LineBreaks(s)
    decreases |s|
  {
    if StartsWithCite(s) {
      var q := CiteEnd(s, |CiteOpen|).value;
      assert s[..5] == CiteOpen;
      assert forall j :: 0 <= j < 5 ==> s[..q + 1][j] == CiteOpen[j];
      NoLineBreaks(s[..q + 1]);
      LineBreaksSplit(s, q + 1);
      RemoveCitesKeepsLines(s[q + 1..]);
    } else if s != [] {
      RemoveCitesKeepsLines(s[1..]);
      assert ([s[0]] + RemoveCites(s[1..]))[1..] == RemoveCites(s[1..]);
    }
  }

  /** The opening `[cite` of a marker at position `j`. */
  predicate CiteAt(s: string, j: int) {
    0 <= j && j + 5 <= |s| && s[j] == '[' && s[j + 1] == 'c' && s[j + 2] == 'i' && s[j + 3] == 't' && s[j + 4] == 'e'
  }

  /** No marker opens anywhere in the text; brackets of other kinds may occur. */
  predicate NoCiteAt(s: string) {
    forall j :: 0 <= j < |s| ==> !CiteAt(s, j)
  }

  /** A text in which no `[cite` occurs, such as a plain JSON array, is left as it is. */
  lemma {:induction false} RemoveCitesKeepsPlain(s: string)
    requires NoCiteAt(s)
    ensures RemoveCites(s) == s
    decreases |s|
  {
    if s != [] {
      assert !StartsWithCite(s) by {
        if |s| >= 5 && s[..5] == CiteOpen {
          assert CiteAt(s, 0);
        }
      }
      assert NoCiteAt(s[1..]) by {
        forall j | CiteAt(s[1..], j)
          ensures false
        {
          assert CiteAt(s, j + 1);
        }
      }
      RemoveCitesKeepsPlain(s[1..]);
      assert s == [s[0]] + s[1..];
    }
  }

  /** A slice of a text without markers has none either. */
  lemma NoCiteAtSlice(s: string, lo: int, hi: int)
    requires NoCiteAt(s) && 0 <= lo <= hi <= |s|
    ensures NoCiteAt(s[lo..hi])
  {
    forall j | CiteAt(s[lo..hi], j)
      ensures false
    {
      assert CiteAt(s, lo + j);
    }
  }

  /** A marker is removed up to its first closing bracket, whatever follows. */
  lemma RemoveCitesMarker(body: string, rest: string)
    requires forall j :: 0 <= j < |body| ==> body[j] != ']' && !IsLineTerminator(body[j])
    ensures RemoveCites(CiteOpen + body + "]" + rest) == RemoveCites(rest)
  {
    var s := CiteOpen + body + "]" + rest;
    var q := |CiteOpen| + |body|;
    assert s[..5] == CiteOpen;
    assert s[q] == ']';
    CiteEndFinds(s, 5, q);
    assert s[q + 1..] == rest;
  }

  lemma {:induction false} CiteEndFinds(s: string, k: nat, q: nat)
    requires k <= q < |s| && s[q] == ']'
    requires forall j :: k <= j < q ==> s[j] != ']' && !IsLineTerminator(s[j])
    ensures CiteEnd(s, k) == Some(q)
    decreases q - k
  {
    if k < q {
      CiteEndFinds(s, k + 1, q);
    }
  }

  // ---------------------------------------------------------------------
  // The three steps together
  // ---------------------------------------------------------------------

  /** The pasted text as `handleImport` hands it to `JSON.parse`. */
  function Clean(raw: string): (r: string)
    ensures |r| <= |raw|
  {
    RemoveCites(Trim(RemoveFences(raw)))
  }

  /** A text without backticks or markers, such as a bare JSON array, is only trimmed. */
  lemma CleanPlainAnswer(raw: string)
    requires forall i :: 0 <= i < |raw| ==> raw[i] != '`'
    requires NoCiteAt(raw)
    ensures Clean(raw) == Trim(raw)
  {
    RemoveFencesKeepsFenceFree(raw);
    var t := Trim(raw);
    var i :| IsTrimmingOf(raw, t, i);
    NoCiteAtSlice(raw, i, i + |t|);
    assert t == raw[i..i + |t|];
    RemoveCitesKeepsPlain(t);
  }

  /** An answer in a JSON code block, without backticks in it or markers, is its trimmed body. */
  lemma CleanFencedAnswer(body: string)
    requires forall i :: 0 <= i < |body| ==> body[i] != '`'
    requires NoCiteAt(body)
    ensures Clean(JsonFence + (body + Fence)) == Trim(body)
  {
    RemoveFencesUnwraps(body);
    var t := Trim(body);
    var i :| IsTrimmingOf(body, t, i);
    NoCiteAtSlice(body, i, i + |t|);
    assert t == body[i..i + |t|];
    RemoveCitesKeepsPlain(t);
  }

  /** The example body: the array `[1]` on a line of its own. */
  const ExampleBody := "\n[1]\n"

  lemma ExampleBodyFacts()
    ensures forall i :: 0 <= i < |ExampleBody| ==> ExampleBody[i] != '`'
    ensures NoCiteAt(ExampleBody)
    ensures Trim(ExampleBody) == "[1]"
  {
    assert IsTrimmingOf(ExampleBody, "[1]", 1);
    TrimUnique(ExampleBody, "[1]", 1);
  }

  /** A fenced one-element array comes out as the bare array. */
  lemma CleanArrayExample()
    ensures Clean(JsonFence + (ExampleBody + Fence)) == "[1]"
  {
    ExampleBodyFacts();
    CleanFencedAnswer(ExampleBody);
  }
}

=== FILE: config.dfy ===
/**
 * The static configuration of constants.tsx: the default category table that
 * drives event expansion, the regional holiday list and the academic year.
 */
module Config {
  import opened Calendar
  import opened IsoDate
  import opened Strings
  import opened Wrappers

  /*
   * The `EventType` tags. The enumeration itself (types.ts) is not part of
   * this model; its values are taken to be the member names, which is also
   * how the import prompt of App.tsx:77 spells them.
   */
  const DiningService := "DINING_SERVICE"
  const PreElaboration := "PRE_ELABORATION"
  const Exam := "EXAM"
  const Theory := "THEORY"
  const Logistics := "LOGISTICS"
  const AutoPrep := "AUTO_PREP"
  const AutoAlarm := "AUTO_ALARM"
  const AutoCritical := "AUTO_CRITICAL"
  const AutoMenuPrep := "AUTO_MENU_PREP"

  /**
   * A category. `hasAutoManagement` makes events of the category spawn
   * dependents; `isSystem` (absent in the source means false) reserves it for
   * dependents and hides it from the manual picker. `caption` is the source's `label`.
   */
  datatype Category = Category(
    id: string,
    caption: string,
    color: string,
    icon: string,
    hasAutoManagement: bool,
    isSystem: bool)

  /** `DEFAULT_CATEGORIES`. */
  const DefaultCategories: seq<Category> := [
    Category(DiningService, "SERVICIO DE COMEDOR", "bg-emerald-500", "\U{1F37D}\U{FE0F}", true, false),
    Category(PreElaboration, "PREELABORACI\U{D3}N", "bg-slate-500", "\U{1F52A}", false, false),
    Category(Exam, "EXAMEN", "bg-rose-500", "\U{1F4DD}", false, false),
    Category(Theory, "TEOR\U{CD}A", "bg-sky-500", "\U{1F4D8}", false, false),
    Category(Logistics, "ACCI\U{D3}N LOG\U{CD}STICA", "bg-amber-400", "\U{1F7E1}", false, false),
    Category(AutoPrep, "Preparaci\U{F3}n de Pedido", "bg-indigo-400", "\U{1F4E6}", false, true),
    Category(AutoAlarm, "Elaborar Pedido", "bg-orange-500", "\U{26A0}\U{FE0F}", false, true),
    Category(AutoCritical, "HACER PEDIDO", "bg-red-600", "\U{1F6A8}", false, true),
    Category(AutoMenuPrep, "Preparaci\U{F3}n Recetario", "bg-purple-400", "\U{1F4D6}", false, true)
  ]

  /** No two categories share an id, so a lookup by id has at most one answer. */
  predicate DistinctIds(cats: seq<Category>) {
    forall i, j :: 0 <= i < j < |cats| ==> cats[i].id != cats[j].id
  }

  lemma DefaultCategoryIdsDistinct()
    ensures DistinctIds(DefaultCategories)
  {
  }

  /** Dining service is the one default category whose events spawn dependents. */
  lemma OnlyDiningServiceIsAutoManaged()
    ensures forall i :: 0 <= i < |DefaultCategories| ==>
      (DefaultCategories[i].hasAutoManagement <==> DefaultCategories[i].id == DiningService)
  {
  }

  /**
   * The last four default categories, the AUTO_* ones, are the system
   * categories, and none of them is auto-managed.
   */
  lemma SystemCategoriesAreTheAutoOnes()
    ensures |DefaultCategories| == 9
    ensures forall i :: 0 <= i < 9 ==> (DefaultCategories[i].isSystem <==> i >= 5)
    ensures forall i :: 5 <= i < 9 ==> !DefaultCategories[i].hasAutoManagement
    ensures DefaultCategories[5].id == AutoPrep && DefaultCategories[6].id == AutoAlarm
    ensures DefaultCategories[7].id == AutoCritical && DefaultCategories[8].id == AutoMenuPrep
  {
  }

  /** The manual picker's choices, `categories.filter(c => !c.isSystem)`: the non-system categories in table order. */
  function ManualCategories(categories: seq<Category>): (r: seq<Category>)
    ensures |r| <= |categories|
    ensures forall c :: c in r <==> c in categories && !c.isSystem
  {
    if categories == [] then []
    else (if categories[0].isSystem then [] else [categories[0]]) + ManualCategories(categories[1..])
  }

  /** A table whose system categories all follow its first `n` is offered up to its `n`-th entry. */
  lemma {:induction false} ManualCategoriesOfPrefix(categories: seq<Category>, n: nat)
    requires n <= |categories|
    requires forall i :: 0 <= i < |categories| ==> (categories[i].isSystem <==> i >= n)
    ensures ManualCategories(categories) == categories[..n]
    decreases |categories|
  {
    if n == 0 {
      if categories != [] {
        ManualCategoriesOfPrefix(categories[1..], 0);
      }
    } else {
      ManualCategoriesOfPrefix(categories[1..], n - 1);
      assert categories[..n] == [categories[0]] + categories[1..][..n - 1];
    }
  }

  /**
   * With the default table the picker offers the first five categories, in
   * order: no AUTO_* category can be chosen by hand, and dining service is the
   * one offered category that spawns dependents.
   */
  lemma DefaultManualCategories()
    ensures ManualCategories(DefaultCategories) == DefaultCategories[..5]
    ensures forall c :: c in ManualCategories(DefaultCategories) ==>
      c.id != AutoPrep && c.id != AutoAlarm && c.id != AutoCritical && c.id != AutoMenuPrep
    ensures forall c :: c in ManualCategories(DefaultCategories) ==> (c.hasAutoManagement <==> c.id == DiningService)
  {
    SystemCategoriesAreTheAutoOnes();
    OnlyDiningServiceIsAutoManaged();
    DefaultCategoryIdsDistinct();
    ManualCategoriesOfPrefix(DefaultCategories, 5);
  }

  /** `MURCIA_HOLIDAYS`. */
  const MurciaHolidays: seq<string> := [
    "2025-09-16", "2025-10-12", "2025-11-01", "2025-12-06", "2025-12-08", "2025-12-25",
    "2026-01-01", "2026-01-06", "2026-03-19", "2026-04-02", "2026-04-03", "2026-04-07",
    "2026-05-01", "2026-06-09", "2026-08-15"
  ]

  /** The `Date` constructor reads a year from 0 to 99 as 1900 to 1999. */
  function FullYear(year: int): int {
    if 0 <= year <= 99 then 1900 + year else year
  }

  /**
   * JavaScript's `new Date(year, monthIndex, day)` as a day number: a year
   * from 0 to 99 means 1900 to 1999, the month index is 0-based and, like the
   * day, may overflow into the next year or month.
   */
  function LocalDate(year: int, monthIndex: int, day: int): int {
    var y := FullYear(year);
    var first := if 0 <= monthIndex < 12 then ToDayNumber(Date(y, monthIndex + 1, 1))
      else ToDayNumber(Date(y + monthIndex / 12, monthIndex % 12 + 1, 1));
    first + day - 1
  }

  /**
   * For in-range arguments `new Date(y, m, d)` is the day whose calendar date
   * is (y, m + 1, d), a two-digit year being read in the 1900s.
   */
  lemma LocalDateInRange(year: int, monthIndex: int, day: int)
    requires 0 <= monthIndex < 12 && 1 <= day <= DaysInMonth(FullYear(year), monthIndex + 1)
    ensures LocalDate(year, monthIndex, day) == ToDayNumber(Date(FullYear(year), monthIndex + 1, day))
    ensures FromDayNumber(LocalDate(year, monthIndex, day)) == Date(FullYear(year), monthIndex + 1, day)
  {
    FromToDayNumber(Date(FullYear(year), monthIndex + 1, day));
  }

  /** `ACADEMIC_YEAR.start`, `new Date(2025, 8, 1)`: with the 0-based month index, 1 September 2025. */
  function AcademicYearStart(): (r: int)
    ensures r == ToDayNumber(Date(2025, 9, 1))
  {
    LocalDateInRange(2025, 8, 1);
    LocalDate(2025, 8, 1)
  }

  /** `ACADEMIC_YEAR.end`, `new Date(2026, 7, 31)`: 31 August 2026. */
  function AcademicYearEnd(): (r: int)
    ensures r == ToDayNumber(Date(2026, 8, 31))
  {
    LocalDateInRange(2026, 7, 31);
    LocalDate(2026, 7, 31)
  }

  /** The academic year spans 365 days: its last day comes 364 days after its first. */
  lemma AcademicYearLength()
    ensures AcademicYearEnd() - AcademicYearStart() == 364
  {
    assert DaysBeforeYear(2026) == DaysBeforeYear(2025) + 365;
    assert DaysBeforeMonth(2026, 8) == 212 && DaysBeforeMonth(2025, 9) == 243;
  }

  /** Every holiday is a `DDDD-DD-DD` string naming a month and a day no later than the 28th. */
  lemma HolidayFields(i: nat)
    requires i < |MurciaHolidays|
    ensures IsFullDateShape(MurciaHolidays[i])
    ensures 1 <= Fields(MurciaHolidays[i]).month <= 12 && 1 <= Fields(MurciaHolidays[i]).day <= 28
  {
    var h := MurciaHolidays[i];
    assert IsFullDateShape(h);
    assert h[5] == '0' || h[5] == '1';
    assert h[8] <= '2';
  }

  /** Every holiday is a valid `full-date`. */
  lemma HolidayIsDate(i: nat)
    requires i < |MurciaHolidays|
    ensures ParseIso(MurciaHolidays[i]).Some?
  {
    HolidayFields(i);
  }

  /** Each holiday precedes the next one: they first differ at the position the table gives. */
  lemma HolidayStep(i: nat)
    requires i < |MurciaHolidays| - 1
    ensures Less(MurciaHolidays[i], MurciaHolidays[i + 1])
  {
    var firstDifference := [5, 6, 6, 9, 8, 3, 9, 6, 6, 9, 9, 6, 6, 6];
    LessAtFirstDifference(MurciaHolidays[i], MurciaHolidays[i + 1], firstDifference[i]);
  }

  /** The holidays are listed in strictly ascending order, hence without duplicates. */
  lemma HolidaysAscending()
    ensures |MurciaHolidays| == 15
    ensures forall i, j :: 0 <= i < j < |MurciaHolidays| ==> Less(MurciaHolidays[i], MurciaHolidays[j])
    ensures forall i, j :: 0 <= i < j < |MurciaHolidays| ==> MurciaHolidays[i] != MurciaHolidays[j]
  {
    forall i | 0 <= i < |MurciaHolidays| - 1
      ensures Less(MurciaHolidays[i], MurciaHolidays[i + 1])
    {
      HolidayStep(i);
    }
    ChainIsSorted(MurciaHolidays);
    forall i, j | 0 <= i < j < |MurciaHolidays|
      ensures MurciaHolidays[i] != MurciaHolidays[j]
    {
      LessIrreflexive(MurciaHolidays[i]);
    }
  }

  /** The first holiday, as a day. */
  lemma FirstHoliday()
    ensures ParseIso(MurciaHolidays[0]) == Some(ToDayNumber(Date(2025, 9, 16)))
  {
    assert MurciaHolidays[0] == DateText(Date(2025, 9, 16));
    ParseDateText(Date(2025, 9, 16));
  }

  /** The last holiday, as a day. */
  lemma LastHoliday()
    ensures ParseIso(MurciaHolidays[14]) == Some(ToDayNumber(Date(2026, 8, 15)))
  {
    assert MurciaHolidays[14] == DateText(Date(2026, 8, 15));
    ParseDateText(Date(2026, 8, 15));
  }

  /** Every holiday falls within the academic year. */
  lemma HolidaysInAcademicYear()
    ensures forall i :: 0 <= i < |MurciaHolidays| ==>
      ParseIso(MurciaHolidays[i]).Some? &&
      AcademicYearStart() <= ParseIso(MurciaHolidays[i]).value <= AcademicYearEnd()
  {
    var h := MurciaHolidays;
    HolidaysAscending();
    FirstHoliday();
    LastHoliday();
    AcademicYearLength();
    forall i | 0 <= i < |h|
      ensures ParseIso(h[i]).Some? && AcademicYearStart() <= ParseIso(h[i]).value <= AcademicYearEnd()
    {
      HolidayIsDate(i);
      if 0 < i {
        IsoOrder(h[0], h[i]);
      }
      if i < 14 {
        IsoOrder(h[i], h[14]);
      }
    }
  }
}

=== FILE: daterules.dfy ===
/**
 * The date rules of utils.ts: the Monday that starts a date's week, the
 * Friday strictly before a date, the urgency window and the holiday test.
 */
module DateRules {
  import opened Calendar
  import opened IsoDate
  import opened Config
  import opened Wrappers

  /** Two days with the same weekday less than a week apart are the same day. */
  lemma SameWeekdayClose(a: int, b: int)
    requires Weekday(a) == Weekday(b) && a <= b < a + 7
    ensures a == b
  {
    var q := (a + 1) / 7;
    var w := Weekday(a);
    assert a + 1 == 7 * q + w;
    if b > a {
      if w + (b - a) < 7 {
        DivUnique(b + 1, 7, q, w + (b - a));
      } else {
        DivUnique(b + 1, 7, q + 1, w + (b - a) - 7);
      }
    }
  }

  /** Stepping back `k < 7` days moves the weekday back `k` places, wrapping past Sunday. */
  lemma WeekdayBack(n: int, k: int)
    requires 0 <= k < 7
    ensures Weekday(n - k) == (Weekday(n) - k + 7) % 7
  {
    var q := (n + 1) / 7;
    if k <= Weekday(n) {
      DivUnique(n - k + 1, 7, q, Weekday(n) - k);
    } else {
      DivUnique(n - k + 1, 7, q - 1, Weekday(n) - k + 7);
    }
  }

  /**
   * `getMondayBefore` (utils.ts): date-fns `startOfWeek` with weeks starting
   * on Monday, which steps back `(day < 1 ? 7 : 0) + day - 1` days from the
   * weekday `day`. The result is the Monday of the week that holds `n`; a
   * Sunday belongs to the week that began six days earlier.
   */
  function MondayBefore(n: int): (r: int)
    ensures Weekday(r) == Monday
    ensures r <= n < r + 7
  {
    var day := Weekday(n);
    var diff := (if day < Monday then 7 else 0) + day - Monday;
    WeekdayBack(n, diff);
    n - diff
  }

  /** The Monday is the only Monday in the seven days ending at `n`. */
  lemma MondayBeforeUnique(n: int, m: int)
    requires Weekday(m) == Monday && m <= n < m + 7
    ensures m == MondayBefore(n)
  {
    var r := MondayBefore(n);
    if m <= r {
      SameWeekdayClose(m, r);
    } else {
      SameWeekdayClose(r, m);
    }
  }

  /** A Monday is its own week start, so applying the rule twice changes nothing. */
  lemma MondayBeforeIdempotent(n: int)
    ensures MondayBefore(MondayBefore(n)) == MondayBefore(n)
  {
    MondayBeforeUnique(MondayBefore(n), MondayBefore(n));
  }

  /** On a Monday the rule keeps the day; on a Sunday it goes back six days. */
  lemma MondayBeforeOnMondayAndSunday(n: int)
    ensures Weekday(n) == Monday ==> MondayBefore(n) == n
    ensures Weekday(n) == Sunday ==> MondayBefore(n) == n - 6
  {
    if Weekday(n) == Monday {
      MondayBeforeUnique(n, n);
    } else if Weekday(n) == Sunday {
      WeekdayBack(n, 6);
      MondayBeforeUnique(n, n - 6);
    }
  }

  /**
   * The closest Friday strictly before day `n`: from the day before, step back
   * to weekday 5.
   */
  function FridayBefore(n: int): (r: int)
    ensures Weekday(r) == Friday
    ensures n - 7 <= r < n
  {
    var back := (Weekday(n - 1) + 7 - Friday) % 7;
    WeekdayBack(n - 1, back);
    n - 1 - back
  }

  /** No Friday lies strictly between `FridayBefore(n)` and `n`. */
  lemma FridayBeforeLatest(n: int, k: int)
    requires FridayBefore(n) < k < n
    ensures Weekday(k) != Friday
  {
    if Weekday(k) == Friday {
      SameWeekdayClose(FridayBefore(n), k);
    }
  }

  /** On a Friday the rule goes back a whole week, not to the same day. */
  lemma FridayBeforeOnFriday(n: int)
    requires Weekday(n) == Friday
    ensures FridayBefore(n) == n - 7
  {
    WeekdayPeriodic(n - 7, 1);
    SameWeekdayClose(n - 7, FridayBefore(n));
  }

  /**
   * `getFridayBefore` (utils.ts) as written: start at the day before and step
   * back one day while the weekday is not 5. `steps` counts the extra steps.
   */
  method GetFridayBefore(date: int) returns (current: int, steps: int)
    ensures Weekday(current) == Friday
    ensures current < date
    ensures forall k :: current < k < date ==> Weekday(k) != Friday
    ensures current == FridayBefore(date)
    ensures 0 <= steps <= 6
  {
    current := date - 1;
    steps := 0;
    while Weekday(current) != Friday
      invariant FridayBefore(date) <= current <= date - 1
      invariant steps == date - 1 - current
      invariant forall k :: current < k < date ==> Weekday(k) != Friday
      decreases current - FridayBefore(date)
    {
      current := current - 1;
      steps := steps + 1;
    }
    if current != FridayBefore(date) {
      SameWeekdayClose(FridayBefore(date), current);
    }
  }

  /** Milliseconds in a day; local days are taken to last 24 hours. */
  const MsPerDay := 86400000

  /** A local instant: a day number and the milliseconds elapsed since its midnight. */
  datatype Instant = Instant(day: int, ms: int)

  predicate ValidInstant(t: Instant) {
    0 <= t.ms < MsPerDay
  }

  function Timestamp(t: Instant): int {
    t.day * MsPerDay + t.ms
  }

  /** Instants on an earlier day come first. */
  lemma EarlierDayFirst(a: Instant, b: Instant)
    requires ValidInstant(a) && ValidInstant(b) && a.day < b.day
    ensures Timestamp(a) < Timestamp(b)
  {
    MulAtLeast(MsPerDay, b.day - a.day);
    assert Timestamp(b) - Timestamp(a) == (b.day - a.day) * MsPerDay + b.ms - a.ms;
  }

  /** date-fns `compareLocalAsc`: the sign of `a - b` in local time. */
  function CompareAsc(a: Instant, b: Instant): (c: int)
    requires ValidInstant(a) && ValidInstant(b)
    ensures c == -1 || c == 0 || c == 1
    ensures c < 0 <==> Timestamp(a) < Timestamp(b)
    ensures c > 0 <==> Timestamp(a) > Timestamp(b)
  {
    if a.day < b.day then EarlierDayFirst(a, b); -1
    else if a.day > b.day then EarlierDayFirst(b, a); 1
    else if a.ms < b.ms then -1
    else if a.ms > b.ms then 1
    else 0
  }

  /** JavaScript's `Math.trunc(x / d)`: division rounding toward zero. */
  function TruncDiv(x: int, d: int): int
    requires d > 0
  {
    if x >= 0 then x / d else -((-x) / d)
  }

  /**
   * date-fns `differenceInDays(later, earlier)`: the calendar-day difference,
   * less one when the last day is not full, with the sign of `later - earlier`.
   * It counts whole 24-hour days between the instants, truncating toward zero.
   */
  function DifferenceInDays(later: Instant, earlier: Instant): (r: int)
    requires ValidInstant(later) && ValidInstant(earlier)
    ensures r == TruncDiv(Timestamp(later) - Timestamp(earlier), MsPerDay)
  {
    var sign := CompareAsc(later, earlier);
    var difference := if later.day >= earlier.day then later.day - earlier.day else earlier.day - later.day;
    var shifted := Instant(later.day - sign * difference, later.ms);
    var lastDayNotFull := if CompareAsc(shifted, earlier) == -sign then 1 else 0;
    TruncatesTowardZero(later, earlier, sign, difference, lastDayNotFull);
    sign * (difference - lastDayNotFull)
  }

  lemma TruncatesTowardZero(later: Instant, earlier: Instant, sign: int, difference: int, lastDayNotFull: int)
    requires ValidInstant(later) && ValidInstant(earlier)
    requires sign == CompareAsc(later, earlier)
    requires difference == if later.day >= earlier.day then later.day - earlier.day else earlier.day - later.day
    requires lastDayNotFull == if CompareAsc(Instant(later.day - sign * difference, later.ms), earlier) == -sign then 1 else 0
    ensures sign * (difference - lastDayNotFull) == TruncDiv(Timestamp(later) - Timestamp(earlier), MsPerDay)
  {
    var delta := Timestamp(later) - Timestamp(earlier);
    var dd := later.day - earlier.day;
    assert delta == dd * MsPerDay + (later.ms - earlier.ms);
    if sign == 1 {
      assert later.day - sign * difference == earlier.day;
      if later.ms >= earlier.ms {
        DivUnique(delta, MsPerDay, dd, later.ms - earlier.ms);
      } else {
        DivUnique(delta, MsPerDay, dd - 1, later.ms - earlier.ms + MsPerDay);
      }
    } else if sign == -1 {
      assert later.day - sign * difference == earlier.day;
      var neg := -delta;
      assert neg == (-dd) * MsPerDay + (earlier.ms - later.ms);
      if earlier.ms >= later.ms {
        DivUnique(neg, MsPerDay, -dd, earlier.ms - later.ms);
      } else {
        DivUnique(neg, MsPerDay, -dd - 1, earlier.ms - later.ms + MsPerDay);
      }
    }
  }

  /** Fewer than 20 whole days, truncating toward zero, is less than 20 days of milliseconds. */
  lemma TwentyDays(delta: int)
    ensures TruncDiv(delta, MsPerDay) < 20 <==> delta < 20 * MsPerDay
  {
    if delta >= 20 * MsPerDay {
      DivUnique(20 * MsPerDay, MsPerDay, 20, 0);
      assert delta / MsPerDay >= 20;
    } else if delta >= 0 {
      assert delta / MsPerDay < 20;
    }
  }

  /**
   * `checkUrgency` (utils.ts): fewer than 20 whole days from creation to the
   * event, that is, the event falls less than 20 days of 24 hours after the
   * creation instant (or before it).
   */
  function CheckUrgency(eventDate: Instant, creationDate: Instant): (urgent: bool)
    requires ValidInstant(eventDate) && ValidInstant(creationDate)
    ensures urgent <==> Timestamp(eventDate) < Timestamp(creationDate) + 20 * MsPerDay
  {
    TwentyDays(Timestamp(eventDate) - Timestamp(creationDate));
    DifferenceInDays(eventDate, creationDate) < 20
  }

  /** For two midnights urgency is a difference of fewer than 20 days; past events are urgent. */
  lemma UrgencyOfWholeDays(eventDay: int, creationDay: int)
    ensures CheckUrgency(Instant(eventDay, 0), Instant(creationDay, 0)) <==> eventDay - creationDay < 20
    ensures eventDay <= creationDay ==> CheckUrgency(Instant(eventDay, 0), Instant(creationDay, 0))
  {
  }

  /** Urgency is closed downward: an earlier event is at least as urgent. */
  lemma UrgencyMonotonic(a: Instant, b: Instant, creationDate: Instant)
    requires ValidInstant(a) && ValidInstant(b) && ValidInstant(creationDate)
    requires Timestamp(a) <= Timestamp(b)
    ensures CheckUrgency(b, creationDate) ==> CheckUrgency(a, creationDate)
  {
  }

  /**
   * `isHoliday` (utils.ts): exact membership of the text in the holiday list,
   * so only a valid date of the academic year can be a holiday.
   */
  function IsHoliday(dateStr: string): (holiday: bool)
    ensures holiday ==> ParseIso(dateStr).Some?
    ensures holiday ==> AcademicYearStart() <= ParseIso(dateStr).value <= AcademicYearEnd()
  {
    HolidaysInAcademicYear();
    dateStr in MurciaHolidays
  }

  /** A holiday text is a valid date of the academic year and is the canonical text of its day. */
  lemma HolidayIsCanonical(dateStr: string)
    requires IsHoliday(dateStr)
    ensures ParseIso(dateStr).Some?
    ensures AcademicYearStart() <= ParseIso(dateStr).value <= AcademicYearEnd()
    ensures FormatDate(ParseIso(dateStr).value) == dateStr
  {
    HolidaysInAcademicYear();
    var i :| 0 <= i < |MurciaHolidays| && MurciaHolidays[i] == dateStr;
    HolidayFields(i);
    AcademicYearLength();
    FormatDateYearOfHoliday(dateStr);
    FormatParseIso(dateStr);
  }

  lemma FormatDateYearOfHoliday(dateStr: string)
    requires ParseIso(dateStr).Some?
    requires AcademicYearStart() <= ParseIso(dateStr).value <= AcademicYearEnd()
    ensures Fields(dateStr).year != 0
  {
    AcademicYearLength();
    if Fields(dateStr).year == 0 {
      BeforeMeansEarlier(Fields(dateStr), Date(2025, 9, 1));
    }
  }

  /** A formatted day that is a holiday is the day that holiday names. */
  lemma FormattedHolidayIsHolidayDay(n: int, i: int)
    requires FromDayNumber(n).year >= 1
    requires 0 <= i < |MurciaHolidays| && MurciaHolidays[i] == FormatDate(n)
    ensures ParseIso(MurciaHolidays[i]) == Some(n)
  {
    HolidayFields(i);
    ParseFormatDate(n);
  }

  /** The day of a holiday, when there is one at `n`. */
  predicate IsHolidayDay(n: int) {
    exists i :: 0 <= i < |MurciaHolidays| && ParseIso(MurciaHolidays[i]) == Some(n)
  }

  lemma FormattedHolidayMeansHolidayDay(n: int)
    requires FromDayNumber(n).year >= 1 && IsHoliday(FormatDate(n))
    ensures IsHolidayDay(n)
  {
    var i :| 0 <= i < |MurciaHolidays| && MurciaHolidays[i] == FormatDate(n);
    FormattedHolidayIsHolidayDay(n, i);
  }

  lemma HolidayDayFormatsAsHoliday(n: int)
    requires IsHolidayDay(n)
    ensures IsHoliday(FormatDate(n))
  {
    var i :| 0 <= i < |MurciaHolidays| && ParseIso(MurciaHolidays[i]) == Some(n);
    HolidayIsCanonical(MurciaHolidays[i]);
    assert FormatDate(n) == MurciaHolidays[i];
  }

  /**
   * For a day of the common era, testing the formatted day is testing whether
   * the day is one of the holidays: exact string membership loses nothing
   * because `formatDate` always writes the canonical text.
   */
  lemma IsHolidayOfFormattedDay(n: int)
    requires FromDayNumber(n).year >= 1
    ensures IsHoliday(FormatDate(n)) <==> IsHolidayDay(n)
  {
    if IsHoliday(FormatDate(n)) {
      FormattedHolidayMeansHolidayDay(n);
    }
    if IsHolidayDay(n) {
      HolidayDayFormatsAsHoliday(n);
    }
  }
}

=== FILE: events.dfy ===
/**
 * The event collection of App.tsx and the operations that change it: adding
 * an event (with the two dependents an auto-managed category spawns),
 * importing a batch, deleting an event with its dependents, and toggling the
 * done flag. Identifiers come from `generateId`, which draws random text; here
 * the caller supplies them.
 */
module Events {
  import opened Wrappers
  import opened Calendar
  import opened IsoDate
  import opened Config
  import opened DateRules

  /**
   * A calendar event. `kind` is the source's `type`. The optional flags
   * `isAutoGenerated` and `isIES` are false when absent.
   */
  datatype Event = Event(
    id: string,
    parentId: Option<string>,
    title: string,
    kind: string,
    date: string,
    time: Option<string>,
    notes: Option<string>,
    isDone: bool,
    isAutoGenerated: bool,
    isIES: bool)

  /** What `addEvent` and the import receive: an event without `id` and `isDone`. */
  datatype Draft = Draft(
    parentId: Option<string>,
    title: string,
    kind: string,
    date: string,
    time: Option<string>,
    notes: Option<string>,
    isAutoGenerated: bool,
    isIES: bool)

  const CriticalTitle := "\U{1F6A8} HACER PEDIDO"
  const AlarmTitle := "\U{26A0}\U{FE0F} Elaborar Pedido"
  const CriticalNotesPrefix := "Cr\U{ED}tico para: "
  const AlarmNotes := "Revisi\U{F3}n stock"

  /** `formatDate` throws a RangeError on the Invalid Date of an unparsable text. */
  const InvalidTimeValue := "RangeError: Invalid time value"

  /** `categories.find(c => c.id === kind)`: the first category with that id. */
  function FindCategory(categories: seq<Category>, kind: string): (r: Option<Category>)
    ensures r.Some? ==> r.value in categories && r.value.id == kind
    ensures r.None? <==> forall c :: c in categories ==> c.id != kind
  {
    if categories == [] then None
    else if categories[0].id == kind then Some(categories[0])
    else FindCategory(categories[1..], kind)
  }

  /** The lookup answers with the first category of that id, whatever follows it. */
  lemma {:induction false} FindCategoryIsFirst(categories: seq<Category>, kind: string, i: int)
    requires 0 <= i < |categories| && categories[i].id == kind
    requires forall j :: 0 <= j < i ==> categories[j].id != kind
    ensures FindCategory(categories, kind) == Some(categories[i])
    decreases i
  {
    if i > 0 {
      FindCategoryIsFirst(categories[1..], kind, i - 1);
    }
  }

  /** With the default table only dining-service drafts are auto-managed. */
  lemma DefaultAutoManagement(kind: string)
    ensures AutoManaged(DefaultCategories, kind) <==> kind == DiningService
  {
    OnlyDiningServiceIsAutoManaged();
    if kind == DiningService {
      FindCategoryIsFirst(DefaultCategories, kind, 0);
    } else if FindCategory(DefaultCategories, kind).Some? {
      var c := FindCategory(DefaultCategories, kind).value;
      var i :| 0 <= i < |DefaultCategories| && DefaultCategories[i] == c;
    }
  }

  /** With distinct ids the lookup finds the one category of that id. */
  lemma FindCategoryUnique(categories: seq<Category>, kind: string, c: Category)
    requires DistinctIds(categories) && c in categories && c.id == kind
    ensures FindCategory(categories, kind) == Some(c)
  {
    var i :| 0 <= i < |categories| && categories[i] == c;
    FindCategoryIsFirst(categories, kind, i);
  }

  /** `category?.hasAutoManagement`: the first category of the kind exists and is auto-managed. */
  predicate AutoManaged(categories: seq<Category>, kind: string) {
    FindCategory(categories, kind).Some? && FindCategory(categories, kind).value.hasAutoManagement
  }

  /**
   * A draft is expanded only when some category of its kind is auto-managed,
   * and, when ids are distinct, whenever one is.
   */
  lemma AutoManagedMeaning(categories: seq<Category>, kind: string)
    ensures AutoManaged(categories, kind) ==> exists c :: c in categories && c.id == kind && c.hasAutoManagement
    ensures DistinctIds(categories) ==>
      (AutoManaged(categories, kind) <==> exists c :: c in categories && c.id == kind && c.hasAutoManagement)
  {
    if DistinctIds(categories) && exists c :: c in categories && c.id == kind && c.hasAutoManagement {
      var c :| c in categories && c.id == kind && c.hasAutoManagement;
      FindCategoryUnique(categories, kind, c);
    }
  }

  /** The draft an event was made from: the event without `id` and `isDone`. */
  function DraftOf(e: Event): Draft {
    Draft(e.parentId, e.title, e.kind, e.date, e.time, e.notes, e.isAutoGenerated, e.isIES)
  }

  /** `{ ...draft, id, isDone: false }`: the draft's fields under the new id, not done. */
  function Primary(draft: Draft, id: string): (e: Event)
    ensures DraftOf(e) == draft
    ensures e.id == id && !e.isDone
  {
    Event(id, draft.parentId, draft.title, draft.kind, draft.date, draft.time, draft.notes,
      false, draft.isAutoGenerated, draft.isIES)
  }

  /** The day numbers of years 2 to 9999. */
  predicate InFormattableYears(n: int) {
    DaysBeforeYear(2) <= n < DaysBeforeYear(10000)
  }

  /** A day of years 2 to 9999 and every day up to a week before it format and parse back. */
  lemma FormattableWeek(n: int, m: int)
    requires InFormattableYears(n) && n - 7 <= m <= n
    ensures ParseIso(FormatDate(m)) == Some(m)
  {
    FormattableYears(n);
    FormatParseYears(n, m);
  }

  /** The days of years 2 to 9999 are those that `FromDayNumber` places in those years. */
  lemma FormattableYears(n: int)
    requires InFormattableYears(n)
    ensures n >= 365 && 2 <= FromDayNumber(n).year <= 9999
  {
    assert DaysBeforeYear(2) == 365;
    var y := YearOf(n);
    assert FromDayNumber(n).year == y;
    if y > 9999 {
      DaysBeforeYearMonotonic(10000, y);
      assert false;
    }
    if y < 2 {
      DaysBeforeYearMonotonic(y + 1, 2);
      assert false;
    }
  }

  /**
   * The critical dependent: order on the Monday that starts the service's
   * week, as a date text that parses back to that Monday.
   */
  function Critical(id: string, mainId: string, title: string, serviceDay: int): (e: Event)
    ensures e.id == id && e.parentId == Some(mainId) && e.kind == AutoCritical
    ensures e.title == CriticalTitle && e.time.None? && !e.isIES
    ensures e.isAutoGenerated && !e.isDone && e.notes == Some(CriticalNotesPrefix + title)
    ensures InFormattableYears(serviceDay) ==>
      ParseIso(e.date) == Some(MondayBefore(serviceDay)) && Weekday(MondayBefore(serviceDay)) == Monday
  {
    var e := Event(id, Some(mainId), CriticalTitle, AutoCritical, FormatDate(MondayBefore(serviceDay)),
      None, Some(CriticalNotesPrefix + title), false, true, false);
    if InFormattableYears(serviceDay) then
      FormattableWeek(serviceDay, MondayBefore(serviceDay));
      e
    else e
  }

  /**
   * The alarm dependent: prepare the order on the Friday strictly before the
   * service, as a date text that parses back to that Friday.
   */
  function Alarm(id: string, mainId: string, serviceDay: int): (e: Event)
    ensures e.id == id && e.parentId == Some(mainId) && e.kind == AutoAlarm
    ensures e.title == AlarmTitle && e.time.None? && !e.isIES
    ensures e.isAutoGenerated && !e.isDone && e.notes == Some(AlarmNotes)
    ensures InFormattableYears(serviceDay) ==>
      ParseIso(e.date) == Some(FridayBefore(serviceDay)) && Weekday(FridayBefore(serviceDay)) == Friday
  {
    var e := Event(id, Some(mainId), AlarmTitle, AutoAlarm, FormatDate(FridayBefore(serviceDay)),
      None, Some(AlarmNotes), false, true, false);
    if InFormattableYears(serviceDay) then
      FormattableWeek(serviceDay, FridayBefore(serviceDay));
      e
    else e
  }

  /** The two dependents of a service on day `serviceDay`, in the order `addEvent` pushes them. */
  function Dependents(mainId: string, criticalId: string, alarmId: string, title: string, serviceDay: int): (deps: seq<Event>)
    ensures |deps| == 2 && deps[0].id == criticalId && deps[1].id == alarmId
    ensures deps[0].kind == AutoCritical && deps[1].kind == AutoAlarm
    ensures deps[0].parentId == Some(mainId) && deps[0].isAutoGenerated && !deps[0].isDone
    ensures deps[1].parentId == Some(mainId) && deps[1].isAutoGenerated && !deps[1].isDone
  {
    [Critical(criticalId, mainId, title, serviceDay), Alarm(alarmId, mainId, serviceDay)]
  }

  /**
   * `addEvent` (App.tsx): append the new event and, when its category is
   * auto-managed, its critical and alarm dependents. `mainId`, `criticalId`
   * and `alarmId` are the three identifiers `generateId` would return. An
   * auto-managed draft whose date does not parse makes `formatDate` throw, and
   * the collection is left as it was.
   */
  function AddEvent(events: seq<Event>, categories: seq<Category>, draft: Draft,
                    mainId: string, criticalId: string, alarmId: string): (r: Result<seq<Event>, string>)
    ensures r.Failure? <==> AutoManaged(categories, draft.kind) && ParseIso(draft.date).None?
    ensures r.Success? ==>
      && |r.value| == |events| + (if AutoManaged(categories, draft.kind) then 3 else 1)
      && r.value[..|events|] == events
      && r.value[|events|] == Primary(draft, mainId)
  {
    var primary := Primary(draft, mainId);
    if AutoManaged(categories, draft.kind) then
      match ParseIso(draft.date)
      case None => Failure(InvalidTimeValue)
      case Some(n) => Success(events + [primary] + Dependents(mainId, criticalId, alarmId, draft.title, n))
    else
      Success(events + [primary])
  }

  /**
   * The two dependents of an auto-managed draft: the critical order then the
   * alarm, both pointing to the new event, generated and not done.
   */
  lemma AddEventDependents(events: seq<Event>, categories: seq<Category>, draft: Draft,
                           mainId: string, criticalId: string, alarmId: string)
    requires AutoManaged(categories, draft.kind)
    requires AddEvent(events, categories, draft, mainId, criticalId, alarmId).Success?
    ensures var r := AddEvent(events, categories, draft, mainId, criticalId, alarmId).value;
      && |r| == |events| + 3
      && r[|events| + 1].id == criticalId && r[|events| + 1].kind == AutoCritical
      && r[|events| + 2].id == alarmId && r[|events| + 2].kind == AutoAlarm
      && r[|events| + 1].notes == Some(CriticalNotesPrefix + draft.title)
      && r[|events| + 1].parentId == Some(mainId) && r[|events| + 2].parentId == Some(mainId)
      && r[|events| + 1].isAutoGenerated && r[|events| + 2].isAutoGenerated
      && !r[|events| + 1].isDone && !r[|events| + 2].isDone
  {
    var deps := Dependents(mainId, criticalId, alarmId, draft.title, ParseIso(draft.date).value);
    var r := events + [Primary(draft, mainId)] + deps;
    assert r[|events| + 1] == deps[0] && r[|events| + 2] == deps[1];
  }

  /** A draft of a non-auto-managed kind is always added, alone. */
  lemma AddPlainEvent(events: seq<Event>, categories: seq<Category>, draft: Draft, mainId: string, criticalId: string, alarmId: string)
    requires !AutoManaged(categories, draft.kind)
    ensures AddEvent(events, categories, draft, mainId, criticalId, alarmId) == Success(events + [Primary(draft, mainId)])
  {
  }

  /**
   * The dependents' dates: the critical one on the Monday starting the
   * service's week (the service day itself on a Monday), the alarm on the
   * closest Friday strictly before it. Both are canonical date texts.
   */
  lemma DependentDates(events: seq<Event>, categories: seq<Category>, draft: Draft,
                       mainId: string, criticalId: string, alarmId: string, n: int)
    requires AutoManaged(categories, draft.kind)
    requires ParseIso(draft.date) == Some(n) && Fields(draft.date).year >= 2
    ensures var r := AddEvent(events, categories, draft, mainId, criticalId, alarmId);
      && r.Success?
      && ParseIso(r.value[|events| + 1].date) == Some(MondayBefore(n))
      && ParseIso(r.value[|events| + 2].date) == Some(FridayBefore(n))
      && Weekday(MondayBefore(n)) == Monday && n - 6 <= MondayBefore(n) <= n
      && Weekday(FridayBefore(n)) == Friday && n - 7 <= FridayBefore(n) < n
  {
    var d := Fields(draft.date);
    DayNumberInYear(d);
    DaysBeforeYearMonotonic(2, d.year);
    assert n >= 365;
    ParseIsoDate(draft.date);
    FormatParseYears(n, MondayBefore(n));
    FormatParseYears(n, FridayBefore(n));
  }

  /** 15 December 2025 is a Monday; the Friday before it is the 12th. */
  lemma ExampleWeek()
    ensures Weekday(ToDayNumber(Date(2025, 12, 15))) == Monday
    ensures ToDayNumber(Date(2025, 12, 12)) == ToDayNumber(Date(2025, 12, 15)) - 3
    ensures FridayBefore(ToDayNumber(Date(2025, 12, 15))) == ToDayNumber(Date(2025, 12, 12))
  {
    var n := ToDayNumber(Date(2025, 12, 15));
    assert Weekday(n - 1) == Sunday;
  }

  lemma ExampleTexts()
    ensures DateText(Date(2025, 12, 15)) == "2025-12-15"
    ensures DateText(Date(2025, 12, 12)) == "2025-12-12"
  {
  }

  /** A date text of years 1 to 9999 parses to its day and is what that day formats as. */
  lemma DateTextRoundTrip(d: Date)
    requires IsValid(d) && 1 <= d.year <= 9999
    ensures ParseIso(DateText(d)) == Some(ToDayNumber(d))
    ensures FormatDate(ToDayNumber(d)) == DateText(d)
  {
    DateTextFields(d);
    ParseDateText(d);
    FormatParseIso(DateText(d));
  }

  /**
   * A dining service on Monday 15 December 2025: the order is placed that
   * same Monday and prepared on Friday 12 December.
   */
  lemma DiningServiceExample(events: seq<Event>, draft: Draft, mainId: string, criticalId: string, alarmId: string)
    requires draft.kind == DiningService && draft.date == "2025-12-15"
    ensures var r := AddEvent(events, DefaultCategories, draft, mainId, criticalId, alarmId);
      && r.Success? && |r.value| == |events| + 3
      && r.value[|events| + 1].date == "2025-12-15"
      && r.value[|events| + 2].date == "2025-12-12"
  {
    DefaultAutoManagement(draft.kind);
    var n := ExampleServiceDay();
    AddServiceDates(events, DefaultCategories, draft, mainId, criticalId, alarmId, n);
  }

  /** The day of the example service, with the texts of its Monday and of the Friday before. */
  lemma ExampleServiceDay() returns (n: int)
    ensures ParseIso("2025-12-15") == Some(n)
    ensures FormatDate(MondayBefore(n)) == "2025-12-15"
    ensures FormatDate(FridayBefore(n)) == "2025-12-12"
  {
    var service := Date(2025, 12, 15);
    var friday := Date(2025, 12, 12);
    n := ToDayNumber(service);
    ExampleTexts();
    DateTextRoundTrip(service);
    DateTextRoundTrip(friday);
    ExampleWeek();
    MondayBeforeOnMondayAndSunday(n);
  }

  /** The dates an auto-managed draft for day `n` gives its two dependents. */
  lemma AddServiceDates(events: seq<Event>, categories: seq<Category>, draft: Draft,
                        mainId: string, criticalId: string, alarmId: string, n: int)
    requires AutoManaged(categories, draft.kind) && ParseIso(draft.date) == Some(n)
    ensures var r := AddEvent(events, categories, draft, mainId, criticalId, alarmId);
      && r.Success? && |r.value| == |events| + 3
      && r.value[|events| + 1].date == FormatDate(MondayBefore(n))
      && r.value[|events| + 2].date == FormatDate(FridayBefore(n))
  {
    var deps := Dependents(mainId, criticalId, alarmId, draft.title, n);
    var r := events + [Primary(draft, mainId)] + deps;
    assert r[|events| + 1] == deps[0] && r[|events| + 2] == deps[1];
  }

  /** A day at most a week before a day of years 2 to 9999 formats and parses back. */
  lemma FormatParseYears(n: int, m: int)
    requires n >= 365 && 1 <= FromDayNumber(n).year <= 9999
    requires n - 7 <= m <= n
    ensures ParseIso(FormatDate(m)) == Some(m)
  {
    YearOfMonotonic(m, n);
    CommonEraDays(m);
    ParseFormatDate(m);
  }

  /**
   * `importFromAI` (App.tsx): every item becomes an event with the next
   * identifier and `isDone` false, appended in order. No category is looked
   * up, so imported services spawn no dependents.
   */
  function ImportFromAI(events: seq<Event>, items: seq<Draft>, ids: seq<string>): (r: seq<Event>)
    requires |ids| == |items|
    ensures |r| == |events| + |items|
    ensures r[..|events|] == events
    ensures forall k :: 0 <= k < |items| ==> r[|events| + k] == Primary(items[k], ids[k])
    decreases |items|
  {
    if items == [] then events
    else ImportFromAI(events + [Primary(items[0], ids[0])], items[1..], ids[1..])
  }

  /** Importing one item adds what `addEvent` adds for a kind no category manages. */
  lemma ImportOneIsPlainAdd(events: seq<Event>, categories: seq<Category>, item: Draft, id: string, criticalId: string, alarmId: string)
    requires !AutoManaged(categories, item.kind)
    ensures AddEvent(events, categories, item, id, criticalId, alarmId) == Success(ImportFromAI(events, [item], [id]))
  {
    var r := ImportFromAI(events, [item], [id]);
    assert r == events + [Primary(item, id)];
  }

  /** Importing two batches one after the other is importing them together. */
  lemma {:induction false} ImportConcat(events: seq<Event>, a: seq<Draft>, ia: seq<string>, b: seq<Draft>, ib: seq<string>)
    requires |ia| == |a| && |ib| == |b|
    ensures ImportFromAI(ImportFromAI(events, a, ia), b, ib) == ImportFromAI(events, a + b, ia + ib)
    decreases |a|
  {
    if a != [] {
      assert (a + b)[1..] == a[1..] + b;
      assert (ia + ib)[1..] == ia[1..] + ib;
      ImportConcat(events + [Primary(a[0], ia[0])], a[1..], ia[1..], b, ib);
    } else {
      assert a + b == b && ia + ib == ib;
    }
  }

  /** The delete filter keeps an event unless it is `id` or one of its dependents. */
  predicate Survives(e: Event, id: string) {
    e.id != id && e.parentId != Some(id)
  }

  /**
   * The delete handler of App.tsx: `events.filter(e => e.id !== id && e.parentId !== id)`,
   * which removes the event and its dependents and keeps the rest in order.
   */
  function Delete(events: seq<Event>, id: string): (r: seq<Event>)
    ensures |r| <= |events|
    ensures forall e :: e in r <==> e in events && Survives(e, id)
  {
    if events == [] then []
    else if Survives(events[0], id) then [events[0]] + Delete(events[1..], id)
    else Delete(events[1..], id)
  }

  /** Deleting from a concatenation deletes from each part. */
  lemma {:induction false} DeleteAppend(a: seq<Event>, b: seq<Event>, id: string)
    ensures Delete(a + b, id) == Delete(a, id) + Delete(b, id)
    decreases |a|
  {
    if a == [] {
      assert a + b == b;
    } else {
      assert (a + b)[0] == a[0];
      assert (a + b)[1..] == a[1..] + b;
      DeleteAppend(a[1..], b, id);
    }
  }

  /** A second delete of the same id changes nothing. */
  lemma {:induction false} DeleteIdempotent(events: seq<Event>, id: string)
    ensures Delete(Delete(events, id), id) == Delete(events, id)
    decreases |events|
  {
    if events != [] {
      DeleteIdempotent(events[1..], id);
      if Survives(events[0], id) {
        var rest := Delete(events[1..], id);
        assert ([events[0]] + rest)[0] == events[0];
        assert ([events[0]] + rest)[1..] == rest;
      }
    }
  }

  /** `a` is `b` with some elements left out, the rest in their order. */
  predicate IsSubsequence(a: seq<Event>, b: seq<Event>)
    decreases |b|
  {
    if a == [] then true
    else if b == [] then false
    else if a[0] == b[0] then IsSubsequence(a[1..], b[1..])
    else IsSubsequence(a, b[1..])
  }

  /** Delete keeps the survivors in their original order. */
  lemma {:induction false} DeleteKeepsOrder(events: seq<Event>, id: string)
    ensures IsSubsequence(Delete(events, id), events)
    decreases |events|
  {
    if events != [] {
      DeleteKeepsOrder(events[1..], id);
      var rest := Delete(events[1..], id);
      if Survives(events[0], id) {
        assert ([events[0]] + rest)[1..] == rest;
      } else if rest != [] {
        SubsequenceSkip(rest, events);
      }
    }
  }

  /** A subsequence of the tail is a subsequence of the whole. */
  lemma {:induction false} SubsequenceSkip(a: seq<Event>, b: seq<Event>)
    requires b != [] && IsSubsequence(a, b[1..])
    ensures IsSubsequence(a, b)
    decreases |b|, 0
  {
    if a != [] && a[0] == b[0] {
      SubsequenceDrop(a, b[1..]);
    }
  }

  /** Dropping the head of a subsequence keeps it a subsequence. */
  lemma {:induction false} SubsequenceDrop(a: seq<Event>, b: seq<Event>)
    requires a != [] && IsSubsequence(a, b)
    ensures IsSubsequence(a[1..], b)
    decreases |b|, 1
  {
    assert b != [];
    if a[0] != b[0] {
      SubsequenceDrop(a, b[1..]);
    }
    SubsequenceSkip(a[1..], b);
  }

  /**
   * The toggle handler of App.tsx: `events.map(e => e.id === id ? {...e, isDone: !e.isDone} : e)`.
   * The list keeps its length and order, only `isDone` changes, and it flips
   * exactly on the events with that id.
   */
  function Toggle(events: seq<Event>, id: string): (r: seq<Event>)
    ensures |r| == |events|
    ensures forall i :: 0 <= i < |events| ==>
      r[i].(isDone := events[i].isDone) == events[i] &&
      (r[i].isDone != events[i].isDone <==> events[i].id == id)
  {
    seq(|events|, i requires 0 <= i < |events| =>
      if events[i].id == id then events[i].(isDone := !events[i].isDone) else events[i])
  }

  /** Toggling twice restores the list. */
  lemma ToggleInvolution(events: seq<Event>, id: string)
    ensures Toggle(Toggle(events, id), id) == events
  {
    var r := Toggle(Toggle(events, id), id);
    assert forall i :: 0 <= i < |events| ==> r[i] == events[i];
  }

  /** No two events share an id. */
  predicate UniqueIds(events: seq<Event>) {
    forall i, j :: 0 <= i < j < |events| ==> events[i].id != events[j].id
  }

  /** `id` is the id of some event. */
  predicate HasId(events: seq<Event>, id: string) {
    exists e :: e in events && e.id == id
  }

  /**
   * The shape `addEvent` builds: ids are unique, and every dependent points to
   * an event of the list that is itself not a dependent.
   */
  predicate WellFormed(events: seq<Event>) {
    && UniqueIds(events)
    && forall e :: e in events && e.parentId.Some? ==>
         exists p :: p in events && p.id == e.parentId.value && p.parentId.None?
  }

  /** Adding a parentless draft with fresh, distinct ids keeps the list well formed. */
  lemma AddEventKeepsWellFormed(events: seq<Event>, categories: seq<Category>, draft: Draft,
                                mainId: string, criticalId: string, alarmId: string)
    requires WellFormed(events) && draft.parentId.None?
    requires !HasId(events, mainId) && !HasId(events, criticalId) && !HasId(events, alarmId)
    requires mainId != criticalId && mainId != alarmId && criticalId != alarmId
    requires AddEvent(events, categories, draft, mainId, criticalId, alarmId).Success?
    ensures WellFormed(AddEvent(events, categories, draft, mainId, criticalId, alarmId).value)
  {
    var r := AddEvent(events, categories, draft, mainId, criticalId, alarmId).value;
    var primary := Primary(draft, mainId);
    if AutoManaged(categories, draft.kind) {
      var deps := Dependents(mainId, criticalId, alarmId, draft.title, ParseIso(draft.date).value);
      assert r == events + [primary] + deps;
      AddServiceKeepsWellFormed(events, primary, deps);
    } else {
      assert r == events + [primary];
      AppendRootsKeepsWellFormed(events, [primary]);
    }
  }

  /** A new parentless event followed by its two dependents, all under fresh, distinct ids. */
  lemma AddServiceKeepsWellFormed(events: seq<Event>, primary: Event, deps: seq<Event>)
    requires WellFormed(events) && primary.parentId.None? && !HasId(events, primary.id)
    requires |deps| == 2 && deps[0].parentId == Some(primary.id) && deps[1].parentId == Some(primary.id)
    requires !HasId(events, deps[0].id) && !HasId(events, deps[1].id)
    requires primary.id != deps[0].id && primary.id != deps[1].id && deps[0].id != deps[1].id
    ensures WellFormed(events + [primary] + deps)
  {
    var withPrimary := events + [primary];
    AppendRootsKeepsWellFormed(events, [primary]);
    assert primary in withPrimary;
    FreshAfterAppend(events, primary, deps[0].id);
    FreshAfterAppend(events, primary, deps[1].id);
    AppendChildrenKeepsWellFormed(withPrimary, deps, primary);
  }

  /** An id fresh for the list and other than the appended event's is fresh afterwards. */
  lemma FreshAfterAppend(events: seq<Event>, e: Event, id: string)
    requires !HasId(events, id) && e.id != id
    ensures !HasId(events + [e], id)
  {
  }

  /**
   * Appending dependents of a parentless event of the list, under fresh,
   * distinct ids, keeps the list well formed.
   */
  lemma AppendChildrenKeepsWellFormed(events: seq<Event>, added: seq<Event>, parent: Event)
    requires WellFormed(events) && UniqueIds(added)
    requires parent in events && parent.parentId.None?
    requires forall k :: 0 <= k < |added| ==> added[k].parentId == Some(parent.id) && !HasId(events, added[k].id)
    ensures WellFormed(events + added)
  {
    var r := events + added;
    var n := |events|;
    forall i, j | 0 <= i < j < |r|
      ensures r[i].id != r[j].id
    {
      if i < n && j >= n {
        assert events[i] in events;
      }
    }
    forall e | e in r && e.parentId.Some?
      ensures exists p :: p in r && p.id == e.parentId.value && p.parentId.None?
    {
      var k :| 0 <= k < |r| && r[k] == e;
      if k < n {
        assert e in events;
        var p :| p in events && p.id == e.parentId.value && p.parentId.None?;
        assert p in r;
      } else {
        assert parent in r;
      }
    }
  }

  /** Deleting keeps the list well formed: no dependent is left without its parent. */
  lemma DeleteKeepsWellFormed(events: seq<Event>, id: string)
    requires WellFormed(events)
    ensures WellFormed(Delete(events, id))
  {
    var r := Delete(events, id);
    DeleteKeepsOrder(events, id);
    SubsequenceUniqueIds(r, events);
    forall e | e in r && e.parentId.Some?
      ensures exists p :: p in r && p.id == e.parentId.value && p.parentId.None?
    {
      var p :| p in events && p.id == e.parentId.value && p.parentId.None?;
      assert Survives(p, id);
    }
  }

  /** Leaving elements out keeps ids unique. */
  lemma {:induction false} SubsequenceUniqueIds(a: seq<Event>, b: seq<Event>)
    requires IsSubsequence(a, b) && UniqueIds(b)
    ensures UniqueIds(a)
    decreases |b|
  {
    if a != [] {
      assert b != [];
      assert UniqueIds(b[1..]) by {
        forall i, j | 0 <= i < j < |b[1..]| ensures b[1..][i].id != b[1..][j].id {
          assert b[1..][i] == b[i + 1] && b[1..][j] == b[j + 1];
        }
      }
      if a[0] == b[0] {
        SubsequenceUniqueIds(a[1..], b[1..]);
        SubsequenceMembers(a[1..], b[1..]);
        forall j | 0 < j < |a| ensures a[0].id != a[j].id {
          assert a[1..][j - 1] == a[j];
          assert a[j] in a[1..];
          assert a[j] in b[1..];
          var k :| 0 <= k < |b[1..]| && b[1..][k] == a[j];
          assert b[k + 1] == a[j];
        }
        forall i, j | 0 < i < j < |a| ensures a[i].id != a[j].id {
          assert a[1..][i - 1] == a[i] && a[1..][j - 1] == a[j];
        }
      } else {
        SubsequenceUniqueIds(a, b[1..]);
      }
    }
  }

  /** Every element of a subsequence is an element of the whole. */
  lemma {:induction false} SubsequenceMembers(a: seq<Event>, b: seq<Event>)
    requires IsSubsequence(a, b)
    ensures forall x :: x in a ==> x in b
    decreases |b|
  {
    if a != [] {
      if a[0] == b[0] {
        SubsequenceMembers(a[1..], b[1..]);
        forall x | x in a ensures x in b {
          if x != a[0] {
            assert x in a[1..];
            assert x in b[1..];
          }
        }
      } else {
        SubsequenceMembers(a, b[1..]);
      }
    }
  }

  /** Toggling keeps the list well formed. */
  lemma ToggleKeepsWellFormed(events: seq<Event>, id: string)
    requires WellFormed(events)
    ensures WellFormed(Toggle(events, id))
  {
    var r := Toggle(events, id);
    forall e | e in r && e.parentId.Some?
      ensures exists p :: p in r && p.id == e.parentId.value && p.parentId.None?
    {
      var k :| 0 <= k < |r| && r[k] == e;
      assert events[k] in events;
      var p :| p in events && p.id == e.parentId.value && p.parentId.None?;
      var m :| 0 <= m < |events| && events[m] == p;
      assert r[m] in r;
    }
  }

  /** Importing parentless items under fresh, distinct ids keeps the list well formed. */
  lemma ImportKeepsWellFormed(events: seq<Event>, items: seq<Draft>, ids: seq<string>)
    requires |ids| == |items| && WellFormed(events)
    requires forall k :: 0 <= k < |items| ==> items[k].parentId.None? && !HasId(events, ids[k])
    requires forall k, l :: 0 <= k < l < |ids| ==> ids[k] != ids[l]
    ensures WellFormed(ImportFromAI(events, items, ids))
  {
    var r := ImportFromAI(events, items, ids);
    var n := |events|;
    var added := r[n..];
    assert r == events + added;
    forall k | 0 <= k < |added|
      ensures added[k].id == ids[k] && added[k].parentId.None?
    {
      assert added[k] == r[n + k];
    }
    AppendRootsKeepsWellFormed(events, added);
  }

  /** Appending parentless events with fresh, distinct ids keeps a list well formed. */
  lemma AppendRootsKeepsWellFormed(events: seq<Event>, added: seq<Event>)
    requires WellFormed(events) && UniqueIds(added)
    requires forall k :: 0 <= k < |added| ==> added[k].parentId.None? && !HasId(events, added[k].id)
    ensures WellFormed(events + added)
  {
    var r := events + added;
    var n := |events|;
    forall i, j | 0 <= i < j < |r|
      ensures r[i].id != r[j].id
    {
      if i < n && j >= n {
        assert events[i] in events;
      }
    }
    forall e | e in r && e.parentId.Some?
      ensures exists p :: p in r && p.id == e.parentId.value && p.parentId.None?
    {
      var k :| 0 <= k < |r| && r[k] == e;
      if k < n {
        assert e in events;
      }
    }
  }
}

=== FILE: isodate.dfy ===
/**
 * The `YYYY-MM-DD` text form of a calendar day: `formatDate` (date-fns
 * `format(date, 'yyyy-MM-dd')`) and the date-only form of date-fns
 * `parseISO`, the two conversions the application applies to event dates.
 * The grammar is `full-date` of section 5.6 of RFC 3339, with the days per
 * month and the leap years of its section 5.7.
 */
module IsoDate {
  import opened Wrappers
  import opened Calendar
  import opened Strings

  predicate IsDigit(c: char) {
    '0' <= c <= '9'
  }

  function DigitChar(k: int): (c: char)
    requires 0 <= k <= 9
    ensures IsDigit(c)
  {
    ('0' as int + k) as char
  }

  function DigitValue(c: char): (k: int)
    requires IsDigit(c)
    ensures 0 <= k <= 9
  {
    c as int - '0' as int
  }

  /** `n` in two zero-padded decimal digits. */
  function Pad2(n: int): (s: string)
    requires 0 <= n < 100
    ensures |s| == 2 && IsDigit(s[0]) && IsDigit(s[1])
  {
    [DigitChar(n / 10), DigitChar(n % 10)]
  }

  /** `n` in four zero-padded decimal digits. */
  function Pad4(n: int): (s: string)
    requires 0 <= n < 10000
    ensures |s| == 4 && forall i :: 0 <= i < 4 ==> IsDigit(s[i])
  {
    Pad2(n / 100) + Pad2(n % 100)
  }

  /** `n` in decimal with no padding. */
  function Decimal(n: nat): (s: string)
    ensures |s| >= 1
    ensures n >= 10 ==> |s| >= 2
    ensures n >= 100 ==> |s| >= 3
    ensures n >= 1000 ==> |s| >= 4
    ensures n >= 10000 ==> |s| >= 5
    ensures forall i :: 0 <= i < |s| ==> IsDigit(s[i])
  {
    if n < 10 then [DigitChar(n)] else Decimal(n / 10) + [DigitChar(n % 10)]
  }

  /** Value of two decimal digits. */
  function Value2(t: string): int
    requires |t| == 2 && IsDigit(t[0]) && IsDigit(t[1])
  {
    10 * DigitValue(t[0]) + DigitValue(t[1])
  }

  /** Value of four decimal digits. */
  function Value4(t: string): int
    requires |t| == 4 && forall i :: 0 <= i < 4 ==> IsDigit(t[i])
  {
    100 * Value2(t[0..2]) + Value2(t[2..4])
  }

  lemma Pad2Value(n: int)
    requires 0 <= n < 100
    ensures Value2(Pad2(n)) == n
  {
  }

  lemma ValuePad2(t: string)
    requires |t| == 2 && IsDigit(t[0]) && IsDigit(t[1])
    ensures Pad2(Value2(t)) == t
  {
    DivUnique(Value2(t), 10, DigitValue(t[0]), DigitValue(t[1]));
  }

  lemma Pad4Value(n: int)
    requires 0 <= n < 10000
    ensures Value4(Pad4(n)) == n
  {
    var s := Pad4(n);
    assert s[0..2] == Pad2(n / 100) && s[2..4] == Pad2(n % 100);
    Pad2Value(n / 100);
    Pad2Value(n % 100);
  }

  lemma ValuePad4(t: string)
    requires |t| == 4 && forall i :: 0 <= i < 4 ==> IsDigit(t[i])
    ensures Pad4(Value4(t)) == t
  {
    var hi := Value2(t[0..2]);
    var lo := Value2(t[2..4]);
    DivUnique(Value4(t), 100, hi, lo);
    ValuePad2(t[0..2]);
    ValuePad2(t[2..4]);
    assert t == t[0..2] + t[2..4];
  }

  /**
   * The year date-fns prints for the `yyyy` token: the era year, so that
   * years 0, -1, ... (1 BC, 2 BC, ...) print as 1, 2, ...
   */
  function EraYear(y: int): (e: int)
    ensures e >= 1
    ensures y >= 1 ==> e == y
  {
    if y > 0 then y else 1 - y
  }

  /** The `yyyy` token: the era year, zero-padded to at least four digits. */
  function YearText(y: int): string {
    var e := EraYear(y);
    if e <= 9999 then Pad4(e) else Decimal(e)
  }

  /** Ten characters `DDDD-DD-DD`, every D a decimal digit. */
  predicate IsFullDateShape(s: string) {
    && |s| == 10
    && s[4] == '-' && s[7] == '-'
    && (forall i :: 0 <= i < 4 ==> IsDigit(s[i]))
    && IsDigit(s[5]) && IsDigit(s[6]) && IsDigit(s[8]) && IsDigit(s[9])
  }

  /** The year, month and day fields of a `DDDD-DD-DD` string, not yet validated. */
  function Fields(s: string): Date
    requires IsFullDateShape(s)
  {
    Date(Value4(s[0..4]), Value2(s[5..7]), Value2(s[8..10]))
  }

  /** A valid date as `yyyy-MM-dd` text. */
  function DateText(d: Date): string
    requires IsValid(d)
  {
    YearText(d.year) + "-" + Pad2(d.month) + "-" + Pad2(d.day)
  }

  lemma DateTextFields(d: Date)
    requires IsValid(d)
    ensures EraYear(d.year) <= 9999 ==>
      IsFullDateShape(DateText(d)) && Fields(DateText(d)) == Date(EraYear(d.year), d.month, d.day)
    ensures EraYear(d.year) > 9999 ==> |DateText(d)| > 10
  {
    var s := DateText(d);
    if EraYear(d.year) <= 9999 {
      assert s[0..4] == Pad4(EraYear(d.year));
      assert s[5..7] == Pad2(d.month) && s[8..10] == Pad2(d.day);
      Pad4Value(EraYear(d.year));
      Pad2Value(d.month);
      Pad2Value(d.day);
    }
  }

  /**
   * `formatDate` (utils.ts): a day as `yyyy-MM-dd`. For every day whose era
   * year has at most four digits the text is a `DDDD-DD-DD` string whose fields
   * are the era year, the month and the day.
   */
  function FormatDate(n: int): (s: string)
    ensures var d := FromDayNumber(n);
      EraYear(d.year) <= 9999 ==>
        IsFullDateShape(s) && Fields(s) == Date(EraYear(d.year), d.month, d.day)
    ensures var d := FromDayNumber(n);
      EraYear(d.year) > 9999 ==> |s| > 10
  {
    DateTextFields(FromDayNumber(n));
    DateText(FromDayNumber(n))
  }

  /**
   * date-fns `parseISO` restricted to a date-only `YYYY-MM-DD` string: the day
   * it names, or None (date-fns' Invalid Date) when the text is not of that
   * shape or names no real day, such as `2025-02-29`. `ParseIsoMeaning`
   * states what a successful parse means.
   */
  function ParseIso(s: string): Option<int>
  {
    if IsFullDateShape(s) && IsValid(Fields(s)) then
      Some(ToDayNumber(Fields(s)))
    else
      None
  }

  /** A parsed day is the date the text spells. */
  lemma ParseIsoDate(s: string)
    requires ParseIso(s).Some?
    ensures FromDayNumber(ParseIso(s).value) == Fields(s)
  {
    FromToDayNumber(Fields(s));
  }

  /**
   * What a parse means: a text parses to day `n` exactly when it has the
   * `DDDD-DD-DD` shape and spells the calendar date of `n`.
   */
  lemma ParseIsoMeaning(s: string, n: int)
    ensures ParseIso(s) == Some(n) <==> IsFullDateShape(s) && FromDayNumber(n) == Fields(s)
  {
    if ParseIso(s) == Some(n) {
      ParseIsoDate(s);
    }
  }

  /** Formatting a day of years 1 to 9999 and parsing the text gives the day back. */
  lemma ParseFormatDate(n: int)
    requires 1 <= FromDayNumber(n).year <= 9999
    ensures ParseIso(FormatDate(n)) == Some(n)
  {
  }

  /** Parsing a valid date string of years 0001 to 9999 and formatting the day gives the string back. */
  lemma FormatParseIso(s: string)
    requires ParseIso(s).Some? && Fields(s).year != 0
    ensures FormatDate(ParseIso(s).value) == s
  {
    var t := FormatDate(ParseIso(s).value);
    ParseIsoDate(s);
    assert Fields(t) == Fields(s);
    LessMonthDay(s, t);
    LessDigits4(s[0..4], t[0..4]);
    assert s == s[0..4] + s[4..] && t == t[0..4] + t[4..];
  }

  /**
   * Year 0000 parses (it is 1 BC) but formats with its era year 0001, so the
   * trip through a day does not give such a text back.
   */
  lemma YearZeroFormatsAsYearOne(s: string)
    requires ParseIso(s).Some? && Fields(s).year == 0
    ensures FormatDate(ParseIso(s).value) == "0001" + s[4..]
    ensures FormatDate(ParseIso(s).value) != s
  {
    var t := FormatDate(ParseIso(s).value);
    ParseIsoDate(s);
    assert Fields(t) == Date(1, Fields(s).month, Fields(s).day);
    LessMonthDay(s, t);
    ValuePad4(t[0..4]);
    assert Pad4(1) == "0001";
    assert t == t[0..4] + t[4..];
    assert s[0..4] != t[0..4];
  }

  /** Numbers written with a common base compare by their high place first. */
  lemma PlaceValueOrder(base: int, a: int, b: int, c: int, d: int)
    requires base > 0 && 0 <= b < base && 0 <= d < base
    ensures base * a + b < base * c + d <==> a < c || (a == c && b < d)
    ensures base * a + b == base * c + d <==> a == c && b == d
  {
    if a < c {
      MulAtLeast(base, c - a);
      assert base * c == base * a + base * (c - a);
    } else if c < a {
      MulAtLeast(base, a - c);
      assert base * a == base * c + base * (a - c);
    }
  }

  /** Two-digit strings compare as their values. */
  lemma LessDigits2(t: string, u: string)
    requires |t| == 2 && IsDigit(t[0]) && IsDigit(t[1])
    requires |u| == 2 && IsDigit(u[0]) && IsDigit(u[1])
    ensures Less(t, u) <==> Value2(t) < Value2(u)
    ensures t == u <==> Value2(t) == Value2(u)
  {
    assert t == [t[0]] + [t[1]] && u == [u[0]] + [u[1]];
    LessConcat([t[0]], [u[0]], [t[1]], [u[1]]);
    LessSingle(t[0], u[0]);
    LessSingle(t[1], u[1]);
    PlaceValueOrder(10, DigitValue(t[0]), DigitValue(t[1]), DigitValue(u[0]), DigitValue(u[1]));
  }

  /** Four-digit strings compare as their values. */
  lemma LessDigits4(t: string, u: string)
    requires |t| == 4 && forall i :: 0 <= i < 4 ==> IsDigit(t[i])
    requires |u| == 4 && forall i :: 0 <= i < 4 ==> IsDigit(u[i])
    ensures Less(t, u) <==> Value4(t) < Value4(u)
    ensures t == u <==> Value4(t) == Value4(u)
  {
    var th, tl, uh, ul := t[0..2], t[2..4], u[0..2], u[2..4];
    assert t == th + tl && u == uh + ul;
    LessConcat(th, uh, tl, ul);
    LessDigits2(th, uh);
    LessDigits2(tl, ul);
    PlaceValueOrder(100, Value2(th), Value2(tl), Value2(uh), Value2(ul));
  }

  /** The `-MM-DD` tails of two date strings compare as (month, day) pairs. */
  lemma LessMonthDay(a: string, b: string)
    requires IsFullDateShape(a) && IsFullDateShape(b)
    ensures Less(a[4..], b[4..]) <==>
      Fields(a).month < Fields(b).month || (Fields(a).month == Fields(b).month && Fields(a).day < Fields(b).day)
    ensures a[4..] == b[4..] <==> Fields(a).month == Fields(b).month && Fields(a).day == Fields(b).day
  {
    var am, ad, bm, bd := a[5..7], a[8..10], b[5..7], b[8..10];
    assert a[4..] == "-" + (am + ("-" + ad));
    assert b[4..] == "-" + (bm + ("-" + bd));
    LessCommonPrefix("-", am + ("-" + ad), bm + ("-" + bd));
    LessConcat(am, bm, "-" + ad, "-" + bd);
    LessCommonPrefix("-", ad, bd);
    LessDigits2(am, bm);
    LessDigits2(ad, bd);
  }

  /** `DDDD-DD-DD` strings compare as the (year, month, day) triples they spell. */
  lemma LessFullDate(a: string, b: string)
    requires IsFullDateShape(a) && IsFullDateShape(b)
    ensures Less(a, b) <==> Before(Fields(a), Fields(b))
  {
    assert a == a[0..4] + a[4..] && b == b[0..4] + b[4..];
    LessConcat(a[0..4], b[0..4], a[4..], b[4..]);
    LessDigits4(a[0..4], b[0..4]);
    LessMonthDay(a, b);
  }

  /**
   * On valid date strings, string order is day order. This is what makes the
   * application's string comparisons of dates (`e.date >= today`, sorting
   * with `localeCompare`) chronological.
   */
  lemma IsoOrder(a: string, b: string)
    requires ParseIso(a).Some? && ParseIso(b).Some?
    ensures Less(a, b) <==> ParseIso(a).value < ParseIso(b).value
    ensures AtLeast(a, b) <==> ParseIso(a).value >= ParseIso(b).value
  {
    LessFullDate(a, b);
    DayNumberOrder(Fields(a), Fields(b));
  }

  /** The text of a date of years 1 to 9999 parses back to that date's day. */
  lemma ParseDateText(d: Date)
    requires IsValid(d) && 1 <= d.year <= 9999
    ensures ParseIso(DateText(d)) == Some(ToDayNumber(d))
  {
    DateTextFields(d);
  }
}

=== FILE: sorting.dfy ===
/**
 * `Array.prototype.sort` with a comparator of the form
 * `(a, b) => key(a).localeCompare(key(b))`: a stable sort by a string key,
 * string order standing for `localeCompare`.
 */
module Sorting {
  import opened Strings

  /** No element comes before one whose key precedes its own. */
  predicate Sorted<T(==,!new)>(key: T -> string, s: seq<T>) {
    forall i, j :: 0 <= i < j < |s| ==> AtLeast(key(s[j]), key(s[i]))
  }

  /** The elements of `s` whose key is `c`, in the order of `s`. */
  function WithKey<T(==,!new)>(key: T -> string, s: seq<T>, c: string): (r: seq<T>)
    ensures forall x :: x in r <==> x in s && key(x) == c
  {
    if s == [] then []
    else (if key(s[0]) == c then [s[0]] else []) + WithKey(key, s[1..], c)
  }

  /**
   * Inserting `x` in front of the first element whose key is not below its
   * own. `x` goes before the elements of equal key, which come later in the
   * input when `SortBy` inserts: this is what keeps the sort stable.
   */
  function Insert<T(==,!new)>(key: T -> string, x: T, s: seq<T>): (r: seq<T>)
    ensures |r| == |s| + 1
    ensures multiset(r) == multiset(s) + multiset{x}
  {
    if s == [] then [x]
    else if AtLeast(key(s[0]), key(x)) then [x] + s
    else
      assert s == [s[0]] + s[1..];
      [s[0]] + Insert(key, x, s[1..])
  }

  lemma SortedTail<T(!new)>(key: T -> string, s: seq<T>)
    requires Sorted(key, s) && s != []
    ensures Sorted(key, s[1..])
  {
    forall i, j | 0 <= i < j < |s[1..]|
      ensures AtLeast(key(s[1..][j]), key(s[1..][i]))
    {
      assert s[1..][i] == s[i + 1] && s[1..][j] == s[j + 1];
    }
  }

  /** Every element of `s` has a key at or after `lo`. */
  predicate Bounded<T>(key: T -> string, s: seq<T>, lo: string) {
    forall i :: 0 <= i < |s| ==> AtLeast(key(s[i]), lo)
  }

  /** A sequence with a head is sorted when its tail is and no key of the tail precedes the head's. */
  lemma SortedCons<T(!new)>(key: T -> string, h: T, t: seq<T>)
    ensures Sorted(key, [h] + t) <==> Sorted(key, t) && Bounded(key, t, key(h))
  {
    var s := [h] + t;
    if Sorted(key, t) && Bounded(key, t, key(h)) {
      forall i, j | 0 <= i < j < |s|
        ensures AtLeast(key(s[j]), key(s[i]))
      {
        assert s[j] == t[j - 1];
        if i > 0 {
          assert s[i] == t[i - 1];
        }
      }
    }
    if Sorted(key, s) {
      forall i | 0 <= i < |t|
        ensures AtLeast(key(t[i]), key(h))
      {
        assert s[i + 1] == t[i] && s[0] == h;
      }
      forall i, j | 0 <= i < j < |t|
        ensures AtLeast(key(t[j]), key(t[i]))
      {
        assert s[i + 1] == t[i] && s[j + 1] == t[j];
      }
    }
  }

  lemma BoundedWeaken<T(!new)>(key: T -> string, s: seq<T>, lo: string, lower: string)
    requires Bounded(key, s, lo) && AtLeast(lo, lower)
    ensures Bounded(key, s, lower)
  {
    forall i | 0 <= i < |s|
      ensures AtLeast(key(s[i]), lower)
    {
      AtLeastTransitive(key(s[i]), lo, lower);
    }
  }

  lemma {:induction false} BoundedInsert<T(!new)>(key: T -> string, x: T, s: seq<T>, lo: string)
    requires Bounded(key, s, lo) && AtLeast(key(x), lo)
    ensures Bounded(key, Insert(key, x, s), lo)
    decreases |s|
  {
    if s != [] && !AtLeast(key(s[0]), key(x)) {
      var rest := Insert(key, x, s[1..]);
      assert Bounded(key, s[1..], lo) by {
        forall i | 0 <= i < |s[1..]|
          ensures AtLeast(key(s[1..][i]), lo)
        {
          assert s[1..][i] == s[i + 1];
        }
      }
      BoundedInsert(key, x, s[1..], lo);
      var r := [s[0]] + rest;
      forall i | 0 <= i < |r|
        ensures AtLeast(key(r[i]), lo)
      {
        if i > 0 {
          assert r[i] == rest[i - 1];
        }
      }
    } else if s != [] {
      var r := [x] + s;
      forall i | 0 <= i < |r|
        ensures AtLeast(key(r[i]), lo)
      {
        if i > 0 {
          assert r[i] == s[i - 1];
        }
      }
    }
  }

  lemma {:induction false} InsertSorted<T(!new)>(key: T -> string, x: T, s: seq<T>)
    requires Sorted(key, s)
    ensures Sorted(key, Insert(key, x, s))
    decreases |s|
  {
    if s != [] {
      var h, t := s[0], s[1..];
      assert s == [h] + t;
      SortedCons(key, h, t);
      if AtLeast(key(h), key(x)) {
        BoundedWeaken(key, t, key(h), key(x));
        assert Bounded(key, s, key(x)) by {
          forall i | 0 <= i < |s|
            ensures AtLeast(key(s[i]), key(x))
          {
            if i > 0 {
              assert s[i] == t[i - 1];
            }
          }
        }
        SortedCons(key, x, s);
      } else {
        InsertSorted(key, x, t);
        LessTrichotomy(key(h), key(x));
        BoundedInsert(key, x, t, key(h));
        SortedCons(key, h, Insert(key, x, t));
      }
    }
  }

  /** Inserting moves no element past another of the same key. */
  lemma {:induction false} InsertWithKey<T(!new)>(key: T -> string, x: T, s: seq<T>, c: string)
    ensures WithKey(key, Insert(key, x, s), c) == (if key(x) == c then [x] else []) + WithKey(key, s, c)
    decreases |s|
  {
    if s == [] {
      assert [x][1..] == [];
    } else if AtLeast(key(s[0]), key(x)) {
      assert ([x] + s)[1..] == s;
    } else {
      var rest := Insert(key, x, s[1..]);
      var head := if key(s[0]) == c then [s[0]] else [];
      var mine := if key(x) == c then [x] else [];
      assert ([s[0]] + rest)[1..] == rest;
      assert WithKey(key, [s[0]] + rest, c) == head + WithKey(key, rest, c);
      assert WithKey(key, s, c) == head + WithKey(key, s[1..], c);
      InsertWithKey(key, x, s[1..], c);
      LessIrreflexive(key(x));
      assert head == [] || mine == [];
    }
  }

  /** The stable sort by `key`: the same elements, in ascending order of key. */
  function SortBy<T(==,!new)>(key: T -> string, s: seq<T>): (r: seq<T>)
    ensures |r| == |s|
    ensures multiset(r) == multiset(s)
    ensures Sorted(key, r)
  {
    if s == [] then []
    else
      assert s == [s[0]] + s[1..];
      InsertSorted(key, s[0], SortBy(key, s[1..]));
      Insert(key, s[0], SortBy(key, s[1..]))
  }

  /** Stability: elements with equal keys keep their order. */
  lemma {:induction false} SortByStable<T(!new)>(key: T -> string, s: seq<T>, c: string)
    ensures WithKey(key, SortBy(key, s), c) == WithKey(key, s, c)
    decreases |s|
  {
    if s != [] {
      InsertWithKey(key, s[0], SortBy(key, s[1..]), c);
      SortByStable(key, s[1..], c);
    }
  }

  /**
   * The stable sort is the only sorted arrangement that keeps the elements
   * of each key in their input order.
   */
  lemma StableSortIsUnique<T(!new)>(key: T -> string, s: seq<T>, r: seq<T>)
    requires Sorted(key, r)
    requires forall c :: WithKey(key, r, c) == WithKey(key, s, c)
    ensures r == SortBy(key, s)
  {
    var t := SortBy(key, s);
    forall c
      ensures WithKey(key, r, c) == WithKey(key, t, c)
    {
      SortByStable(key, s, c);
    }
    SortedSameKeyGroups(key, r, t);
  }

  /** The first element of a sorted sequence has the least key. */
  lemma SortedHeadLeast<T(!new)>(key: T -> string, s: seq<T>, x: T)
    requires Sorted(key, s) && x in s
    ensures AtLeast(key(x), key(s[0]))
  {
    var j :| 0 <= j < |s| && s[j] == x;
    if j == 0 {
      LessIrreflexive(key(x));
    }
  }

  /** A prefix of a sorted sequence is sorted. */
  lemma SortedPrefix<T(!new)>(key: T -> string, s: seq<T>, n: nat)
    requires Sorted(key, s) && n <= |s|
    ensures Sorted(key, s[..n])
  {
    forall i, j | 0 <= i < j < n
      ensures AtLeast(key(s[..n][j]), key(s[..n][i]))
    {
      assert s[..n][i] == s[i] && s[..n][j] == s[j];
    }
  }

  /**
   * Cutting a sorted sequence after `n` elements keeps the least: every
   * element cut off has a key at or after every key kept.
   */
  lemma PrefixKeepsLeast<T(!new)>(key: T -> string, s: seq<T>, n: nat)
    requires Sorted(key, s) && n <= |s|
    ensures multiset(s[..n]) <= multiset(s)
    ensures forall x, i :: x in multiset(s) - multiset(s[..n]) && 0 <= i < n ==> AtLeast(key(x), key(s[i]))
  {
    var rest := s[n..];
    assert s == s[..n] + rest;
    assert multiset(s) == multiset(s[..n]) + multiset(rest);
    forall x, i | x in multiset(s) - multiset(s[..n]) && 0 <= i < n
      ensures AtLeast(key(x), key(s[i]))
    {
      assert x in multiset(rest);
      var j :| 0 <= j < |rest| && rest[j] == x;
      assert s[n + j] == x;
    }
  }

  /** The group of the first element's key is not empty. */
  lemma HeadGroup<T(!new)>(key: T -> string, s: seq<T>)
    requires s != []
    ensures WithKey(key, s, key(s[0])) != []
  {
  }

  /** Two sorted sequences with the same elements of each key, in the same order, start alike. */
  lemma SameHead<T(!new)>(key: T -> string, a: seq<T>, b: seq<T>)
    requires Sorted(key, a) && Sorted(key, b) && a != [] && b != []
    requires forall c :: WithKey(key, a, c) == WithKey(key, b, c)
    ensures a[0] == b[0]
  {
    var ka, kb := key(a[0]), key(b[0]);
    assert a[0] in WithKey(key, b, ka) by {
      assert a[0] in WithKey(key, a, ka);
    }
    SortedHeadLeast(key, b, a[0]);
    assert b[0] in WithKey(key, a, kb) by {
      assert b[0] in WithKey(key, b, kb);
    }
    SortedHeadLeast(key, a, b[0]);
    AtLeastMeansFollows(ka, kb);
    LessTrichotomy(ka, kb);
    assert ka == kb;
    assert WithKey(key, a, ka) == [a[0]] + WithKey(key, a[1..], ka);
    assert WithKey(key, b, ka) == [b[0]] + WithKey(key, b[1..], ka);
    assert WithKey(key, a, ka)[0] == WithKey(key, b, ka)[0];
  }

  /** Dropping one and the same head from both sides keeps the groups equal. */
  lemma SameTailGroups<T(!new)>(key: T -> string, a: seq<T>, b: seq<T>)
    requires a != [] && b != [] && a[0] == b[0]
    requires forall c :: WithKey(key, a, c) == WithKey(key, b, c)
    ensures forall c :: WithKey(key, a[1..], c) == WithKey(key, b[1..], c)
  {
    forall c
      ensures WithKey(key, a[1..], c) == WithKey(key, b[1..], c)
    {
      var head := if key(a[0]) == c then [a[0]] else [];
      assert WithKey(key, a[1..], c) == WithKey(key, a, c)[|head|..];
      assert WithKey(key, b[1..], c) == WithKey(key, b, c)[|head|..];
    }
  }

  /** Two sorted sequences with the same elements of each key, in the same order, are equal. */
  lemma {:induction false} SortedSameKeyGroups<T(!new)>(key: T -> string, a: seq<T>, b: seq<T>)
    requires Sorted(key, a) && Sorted(key, b)
    requires forall c :: WithKey(key, a, c) == WithKey(key, b, c)
    ensures a == b
    decreases |a|
  {
    if a == [] {
      if b != [] {
        HeadGroup(key, b);
        assert false;
      }
    } else if b == [] {
      HeadGroup(key, a);
      assert false;
    } else {
      SameHead(key, a, b);
      SameTailGroups(key, a, b);
      SortedTail(key, a);
      SortedTail(key, b);
      SortedSameKeyGroups(key, a[1..], b[1..]);
      assert a == [a[0]] + a[1..] && b == [b[0]] + b[1..];
    }
  }
}

=== FILE: strings.dfy ===
/**
 * String order as the application uses it: JavaScript's relational operators
 * on strings (`e.date >= today`) and `localeCompare` in the sort comparators.
 * Both are modelled as lexicographic order on characters.
 */
module Strings {

  /** `a < b` on strings: the first differing character decides, and a proper prefix comes first. */
  predicate Less(a: string, b: string)
    decreases |a|
  {
    if |a| == 0 then |b| > 0
    else if |b| == 0 then false
    else if a[0] != b[0] then a[0] < b[0]
    else Less(a[1..], b[1..])
  }

  /** `a >= b` on strings, which JavaScript evaluates as "not `a < b`". */
  predicate AtLeast(a: string, b: string) {
    !Less(a, b)
  }

  /** No string precedes itself. */
  lemma {:induction false} LessIrreflexive(a: string)
    ensures !Less(a, a)
    decreases |a|
  {
    if |a| > 0 {
      LessIrreflexive(a[1..]);
    }
  }

  lemma {:induction false} LessTransitive(a: string, b: string, c: string)
    requires Less(a, b) && Less(b, c)
    ensures Less(a, c)
    decreases |a|
  {
    if |a| > 0 && |b| > 0 && |c| > 0 && a[0] == b[0] && b[0] == c[0] {
      LessTransitive(a[1..], b[1..], c[1..]);
    }
  }

  /** Any two strings are equal or one precedes the other, and not both ways. */
  lemma {:induction false} LessTrichotomy(a: string, b: string)
    ensures Less(a, b) || a == b || Less(b, a)
    ensures !(Less(a, b) && Less(b, a))
    decreases |a|
  {
    if |a| > 0 && |b| > 0 && a[0] == b[0] {
      LessTrichotomy(a[1..], b[1..]);
      if a[1..] == b[1..] {
        assert a == [a[0]] + a[1..] && b == [b[0]] + b[1..];
      }
    }
  }

  /** `a >= b` holds exactly when `a` equals `b` or follows it. */
  lemma AtLeastMeansFollows(a: string, b: string)
    ensures AtLeast(a, b) <==> a == b || Less(b, a)
  {
    LessTrichotomy(a, b);
    if a == b {
      LessIrreflexive(a);
    }
  }

  /** Comparing two strings with a common first part of equal length comes down to the rest. */
  lemma {:induction false} LessCommonPrefix(p: string, a: string, b: string)
    ensures Less(p + a, p + b) <==> Less(a, b)
    decreases |p|
  {
    if |p| == 0 {
      assert p + a == a && p + b == b;
    } else {
      assert (p + a)[0] == p[0] == (p + b)[0];
      assert (p + a)[1..] == p[1..] + a;
      assert (p + b)[1..] == p[1..] + b;
      LessCommonPrefix(p[1..], a, b);
    }
  }

  /** `>=` on strings is transitive. */
  lemma AtLeastTransitive(a: string, b: string, c: string)
    requires AtLeast(a, b) && AtLeast(b, c)
    ensures AtLeast(a, c)
  {
    AtLeastMeansFollows(a, b);
    AtLeastMeansFollows(b, c);
    AtLeastMeansFollows(a, c);
    if Less(b, a) && Less(c, b) {
      LessTransitive(c, b, a);
    }
  }

  /** Two one-character strings compare as their characters do. */
  lemma LessSingle(c: char, d: char)
    ensures Less([c], [d]) <==> c < d
  {
    assert [c][1..] == [] && [d][1..] == [];
  }

  /**
   * Strings whose first parts have the same length compare first by those
   * parts and, when those agree, by the rest.
   */
  lemma {:induction false} LessConcat(p: string, q: string, x: string, y: string)
    requires |p| == |q|
    ensures Less(p + x, q + y) <==> Less(p, q) || (p == q && Less(x, y))
    decreases |p|
  {
    if |p| == 0 {
      assert p + x == x && q + y == y;
    } else {
      assert (p + x)[0] == p[0] && (q + y)[0] == q[0];
      assert (p + x)[1..] == p[1..] + x;
      assert (q + y)[1..] == q[1..] + y;
      LessConcat(p[1..], q[1..], x, y);
      if p[0] == q[0] && p[1..] == q[1..] {
        assert p == [p[0]] + p[1..] && q == [q[0]] + q[1..];
      }
    }
  }

  /** A sequence whose neighbours ascend strictly is strictly ascending throughout. */
  lemma {:induction false} ChainIsSorted(s: seq<string>)
    requires forall i :: 0 <= i < |s| - 1 ==> Less(s[i], s[i + 1])
    ensures forall i, j :: 0 <= i < j < |s| ==> Less(s[i], s[j])
    decreases |s|
  {
    if |s| > 1 {
      ChainIsSorted(s[1..]);
      forall j | 1 < j < |s|
        ensures Less(s[0], s[j])
      {
        assert s[1..][0] == s[1] && s[1..][j - 1] == s[j];
        LessTransitive(s[0], s[1], s[j]);
      }
      forall i, j | 0 < i < j < |s|
        ensures Less(s[i], s[j])
      {
        assert s[1..][i - 1] == s[i] && s[1..][j - 1] == s[j];
      }
    }
  }

  /** Two strings that agree before position `k` and differ there are ordered by that character. */
  lemma {:induction false} LessAtFirstDifference(a: string, b: string, k: nat)
    requires k < |a| && k < |b| && a[..k] == b[..k] && a[k] < b[k]
    ensures Less(a, b)
    decreases k
  {
    if k > 0 {
      assert a[0] == a[..k][0] == b[..k][0] == b[0];
      assert a[1..][..k - 1] == a[..k][1..] == b[..k][1..] == b[1..][..k - 1];
      LessAtFirstDifference(a[1..], b[1..], k - 1);
    }
  }
}

=== FILE: views.dfy ===
/**
 * The two ordered lists the application shows: the dashboard's "upcoming"
 * list (App.tsx, `Dashboard`) and the calendar's list for the selected day
 * (App.tsx, `CalendarView`). Both sort with `Array.prototype.sort`, which
 * is stable, and a `localeCompare` comparator, modelled as string order.
 */
module Views {
  import opened Wrappers
  import opened Calendar
  import opened Strings
  import opened IsoDate
  import opened Events
  import opened Sorting

  /** The dashboard shows at most this many upcoming events. */
  const UpcomingLimit := 8

  /** The time an event sorts by in the day view: `a.time || '00:00'`. */
  const Midnight := "00:00"

  /** The key of the dashboard's sort: `a.date.localeCompare(b.date)`. */
  function DateOf(e: Event): string {
    e.date
  }

  /** The key of the day view's sort: `a.time || '00:00'`, an empty or absent time reading as midnight. */
  function EffectiveTime(e: Event): string {
    if e.time.None? || e.time.value == "" then Midnight else e.time.value
  }

  /** The dashboard's candidates: `events.filter(e => !e.isDone && e.date >= today)`. */
  function Pending(events: seq<Event>, today: string): (r: seq<Event>)
    ensures |r| <= |events|
    ensures forall e :: multiset(r)[e] == if !e.isDone && AtLeast(e.date, today) then multiset(events)[e] else 0
  {
    if events == [] then []
    else
      assert events == [events[0]] + events[1..];
      (if !events[0].isDone && AtLeast(events[0].date, today) then [events[0]] else []) + Pending(events[1..], today)
  }

  /**
   * The dashboard's upcoming list, `today` being the formatted current date:
   * the pending events dated `today` or later, in date order, cut to the
   * first eight.
   */
  function Upcoming(events: seq<Event>, today: string): (r: seq<Event>)
    ensures |r| == if |Pending(events, today)| < UpcomingLimit then |Pending(events, today)| else UpcomingLimit
    ensures Sorted(DateOf, r)
  {
    var sorted := SortBy(DateOf, Pending(events, today));
    if |sorted| <= UpcomingLimit then sorted
    else
      SortedPrefix(DateOf, sorted, UpcomingLimit);
      sorted[..UpcomingLimit]
  }

  /**
   * The upcoming list holds the earliest pending events: every pending event
   * left out is dated no earlier than any shown, and none is left out while
   * fewer than eight are shown.
   */
  lemma UpcomingAreEarliest(events: seq<Event>, today: string)
    ensures var pending := Pending(events, today);
      var r := Upcoming(events, today);
      && multiset(r) <= multiset(pending)
      && (|r| < UpcomingLimit ==> multiset(r) == multiset(pending))
      && forall e, i :: e in multiset(pending) - multiset(r) && 0 <= i < |r| ==> AtLeast(DateOf(e), DateOf(r[i]))
  {
    var pending := Pending(events, today);
    var sorted := SortBy(DateOf, pending);
    var r := Upcoming(events, today);
    if |sorted| > UpcomingLimit {
      assert r == sorted[..UpcomingLimit];
      PrefixKeepsLeast(DateOf, sorted, UpcomingLimit);
    } else {
      assert r == sorted;
      assert multiset(pending) - multiset(r) == multiset{};
    }
  }

  /** Every event of the upcoming list is in the collection, not done, and dated `today` or later. */
  lemma UpcomingMembers(events: seq<Event>, today: string, e: Event)
    requires e in Upcoming(events, today)
    ensures e in events && !e.isDone && AtLeast(e.date, today)
  {
    UpcomingAreEarliest(events, today);
    var pending := Pending(events, today);
    assert multiset(Upcoming(events, today))[e] > 0;
    assert multiset(pending)[e] > 0;
  }

  /**
   * On a day `now` of years 1 to 9999, and for events whose date is a valid
   * date text, the upcoming list is chronological: no event before `now`,
   * and each no later than the next.
   */
  lemma UpcomingChronological(events: seq<Event>, now: int)
    requires 1 <= FromDayNumber(now).year <= 9999
    ensures var r := Upcoming(events, FormatDate(now));
      && (forall e :: e in r && ParseIso(e.date).Some? ==> ParseIso(e.date).value >= now)
      && forall i, j :: 0 <= i < j < |r| && ParseIso(r[i].date).Some? && ParseIso(r[j].date).Some? ==>
           ParseIso(r[i].date).value <= ParseIso(r[j].date).value
  {
    var today := FormatDate(now);
    var r := Upcoming(events, today);
    ParseFormatDate(now);
    forall e | e in r && ParseIso(e.date).Some?
      ensures ParseIso(e.date).value >= now
    {
      UpcomingMembers(events, today, e);
      IsoOrder(e.date, today);
    }
    forall i, j | 0 <= i < j < |r| && ParseIso(r[i].date).Some? && ParseIso(r[j].date).Some?
      ensures ParseIso(r[i].date).value <= ParseIso(r[j].date).value
    {
      assert AtLeast(DateOf(r[j]), DateOf(r[i]));
      IsoOrder(r[j].date, r[i].date);
    }
  }

  /** The calendar's events of one date: `events.filter(e => e.date === date)`. */
  function OnDate(events: seq<Event>, date: string): (r: seq<Event>)
    ensures |r| <= |events|
    ensures forall e :: multiset(r)[e] == if e.date == date then multiset(events)[e] else 0
  {
    if events == [] then []
    else
      assert events == [events[0]] + events[1..];
      (if events[0].date == date then [events[0]] else []) + OnDate(events[1..], date)
  }

  /**
   * The calendar's list for `selectedDay`: the events whose date text is the
   * day's formatted date, ordered by time, those without a time at midnight,
   * and those at the same time in collection order.
   */
  function DayEvents(events: seq<Event>, selectedDay: int): (r: seq<Event>)
    ensures forall e :: multiset(r)[e] == if e.date == FormatDate(selectedDay) then multiset(events)[e] else 0
    ensures Sorted(EffectiveTime, r)
  {
    SortBy(EffectiveTime, OnDate(events, FormatDate(selectedDay)))
  }

  /** Events at the same time keep their collection order in the day list. */
  lemma DayEventsStable(events: seq<Event>, selectedDay: int, time: string)
    ensures WithKey(EffectiveTime, DayEvents(events, selectedDay), time) ==
            WithKey(EffectiveTime, OnDate(events, FormatDate(selectedDay)), time)
  {
    SortByStable(EffectiveTime, OnDate(events, FormatDate(selectedDay)), time);
  }

  /**
   * On a day of years 1 to 9999, an event is listed exactly when its date
   * text parses to that day.
   */
  lemma DayEventsByParsedDate(events: seq<Event>, selectedDay: int, e: Event)
    requires 1 <= FromDayNumber(selectedDay).year <= 9999
    ensures e in DayEvents(events, selectedDay) <==> e in events && ParseIso(e.date) == Some(selectedDay)
  {
    var r := DayEvents(events, selectedDay);
    assert e in r <==> multiset(r)[e] > 0;
    ParseFormatDate(selectedDay);
    if ParseIso(e.date) == Some(selectedDay) {
      ParseIsoDate(e.date);
      FormatParseIso(e.date);
    }
  }
}

=== FILE: wrappers.dfy ===
/** Failure-carrying result types shared by the agenda model. */
module Wrappers {

  /** A value that may be absent: JavaScript's `undefined` for an optional field. */
  datatype Option<+T> = None | Some(value: T)

  /** The outcome of an operation that can throw. */
  datatype Result<+R, +E> = Success(value: R) | Failure(error: E)
}
